=== FILE: README.md ===
# grpc-balance-processor in Dafny

This project models the core of a balance service with two parts:

- a **ledger transaction engine**, which applies deposits and withdrawals to account balances, idempotently on a client transaction id;
- a **cancellation scheduler**, which periodically reverses ("compensates") some of the applied operations.

It also models the validation and enum mapping that the gRPC edge performs before a request reaches the ledger.

The two database tables (`accounts`, `operations`) are an immutable value `Tables.Db`:

- `accounts` maps an account id to its balance and `updated_at`;
- `ops` is the sequence of operation rows in insertion order.

Every SQL statement the code runs becomes a pure function from one table state to the next. A transaction is a pure function returning `(new tables, outcome)`. A rollback returns the input tables unchanged. Money in the ledger is an integer number of minor units (cents). At the edge, an amount is the `(coefficient, exponent)` pair its decimal parser returns. `Validation.AcceptedAmountIsWholeCents` links the two.

| module | file | models |
|---|---|---|
| `Domain` | domain.dfy | the domain enums, records, statuses and sentinel errors |
| `Tables` | tables.dfy | the two tables, their invariants, and the SQL statements of the ledger |
| `Ledger` | ledger.dfy | the repository: `ProcessTransaction`, `GetAccount`, `CreateAccount`, `GetOperationByTxID` |
| `Usecase` | usecase.dfy | `Process` (outcome to status mapping, re-read on rejection) and `GetBalance` |
| `Selection` | selection.dfy | the candidate query as a pure ranking and filter function |
| `Compensation` | compensation.dfy | `cancelOne` and its helpers |
| `Scheduler` | scheduler.dfy | `runOnce` (lock gate, loop, tallies) and the `Run` loop |
| `Wire` | wire.dfy | the generated protobuf enums and messages, and gRPC status errors |
| `Validation` | validation.dfy | request, account id, amount and tx id validation |
| `Mapping` | mapping.dfy | wire enum to domain enum mapping |
| `ErrorMapping` | error_mapping.dfy | domain error to gRPC status mapping |
| `Scenarios` | scenarios.dfy | a worked sequence of requests and one cancellation |

Environment effects are parameters:

- **Storage failures.** Each transaction receives the set of statements that fail (`TxStep`, `CancelStep`). A single bit is used for single-statement reads.
- **Time.** The clock is an opaque `Timestamp`.
- **Lock and ticker.** The advisory lock outcome is a boolean per cycle (`CycleEnv`). The ticker and the context's end are a sequence of `Signal`s. The tick loop `Scheduler.Ticks` takes the cycle as a parameter; the scheduler runs it with `Scheduler.Cycle`.
- **Parsing.** UUID and decimal parsing are functions passed in.

Behaviours of the code worth knowing:

- **A rejected operation leaves no row.** On the negative-balance path `ProcessTransaction` returns without committing (internal/repository/balance.go:160-163). The deferred rollback (internal/repository/balance.go:125) therefore discards both the account upsert and the operation row. No row with `applied = false` is kept.
- **A refused first operation on a new account is reported as not found.** The upsert was rolled back, so the use case's re-read (internal/usecase/balance.go:46-52) finds no account (internal/repository/balance.go:58-61). It returns `ErrNotFound`, not `RejectedNegative` with balance 0 (see `Usecase.Process`).
- **A duplicate commits the upsert.** It reports the snapshot of the account named in the request, not the account of the stored row (internal/repository/balance.go:139-148). That account may have been created by this very call, with balance 0.
- **The error mapping is never called.** `mapDomainError` exists (internal/transport/errors.go:11-22), but the gRPC handlers return use-case errors without calling it (internal/transport/server.go:67-70, 90-93). It is modelled as written.
- **The compensating row can itself be cancelled later.** It is stored applied and uncanceled (internal/scheduler/cancellation.go:155-158), so a later cycle may select it (internal/scheduler/selection.go:17-18). The only protection against reversing an operation twice is the `canceled_at` check on the original row (internal/scheduler/cancellation.go:42-49).
- **The compensating key can collide.** If a client already used the tx id `cancel::<tx_id>`, the compensating insert does nothing (internal/scheduler/cancellation.go:155-158). The balance is still reversed (internal/scheduler/cancellation.go:54-59), and the original is still marked cancelled while staying applied (internal/scheduler/cancellation.go:83-87). From then on the account's balance differs from the sum of its applied rows (`Compensation.CancelOneKeyCollision`, `Scenarios.ClientKeyTakesCompensationSlot`).

## Model

| member | source | states |
|---|---|---|
| Domain.SourceFromName | internal/domain/models.go:10-16 | a stored source name reads back as the source with that name, and the three names are the only ones accepted |
| Domain.StateFromName | internal/domain/models.go:18-23 | a stored state name reads back as the state with that name; only "deposit" and "withdraw" are accepted |
| Domain.NamesRoundTrip | internal/domain/models_test.go:7-38 | every source and state round-trips through its column name, and the names are "game", "payment", "service", "deposit", "withdraw" |
| Tables.CreateAccountIfAbsent | internal/repository/balance.go:17-20 | the upsert creates a zero-balance row only when the id is absent; every existing row, including the requested one, is left untouched |
| Tables.InsertOpIfAbsent | internal/repository/balance.go:22-26 | the insert adds exactly one row with the next id iff no row holds the tx id; otherwise the tables are unchanged and no row is reported |
| Tables.UpdateBalanceGuarded | internal/repository/balance.go:28-35 | the update succeeds iff the account exists and balance + delta is non-negative; it then changes only that account's balance and timestamp |
| Tables.SetAppliedByTx | internal/repository/balance.go:172 | every row carrying the tx id becomes applied; no other row and no other column changes |
| Tables.SetNoteById | internal/scheduler/cancellation.go:191-199 | the row with the id gets the note; every other row, and every other column, is unchanged |
| Tables.SetCanceledById | internal/scheduler/cancellation.go:181-189 | the row with the id becomes cancelled at the clock value with the note; every other row, and every other column, is unchanged |
| Ledger.GetAccount | internal/repository/balance.go:50-72 | succeeds iff the read does not fail and the row exists, returning the stored row; `ErrNotFound` exactly when no row matches and the read does not fail; any other error is a storage error |
| Ledger.CreateAccount | internal/repository/balance.go:74-83 | on success it is exactly the idempotent upsert and the account then exists; a failure changes nothing |
| Ledger.GetOperationByTxID | internal/repository/balance.go:85-105 | succeeds iff the read does not fail and a row carries the tx id, returning that stored row; `ErrNotFound` exactly when no row carries it and the read does not fail |
| Ledger.CreateAccountThenGet | internal/repository/balance.go:74-83 | the upsert is idempotent, and reading the account right after it returns the existing row unchanged or a new row with balance 0 |
| Ledger.ProcessThenGetOperation | internal/repository/balance.go:85-105 | after a commit, reading by the tx id returns exactly the one applied row the transaction appended |
| Ledger.SignedDelta | internal/repository/balance.go:151-155 | the balance moves by the amount, up for a deposit and down for a withdrawal |
| Ledger.ProcessTransaction | internal/repository/balance.go:120-180 | duplicate iff the tx id is known, with only the upsert kept and the requester's snapshot; negative-balance iff starting balance + signed delta < 0, with everything rolled back; success iff the delta keeps the balance non-negative, with new balance = old + delta and one applied row appended; every storage error is a rollback; it never reports `ErrNotFound` |
| Ledger.ProcessPreservesWellFormed | internal/repository/balance.go:120-180 | processing keeps balances non-negative, tx ids unique, ids dense and every row's account present |
| Ledger.ProcessPreservesLedger | internal/repository/balance.go:152-179 | each balance equals the signed sum of that account's applied operations before and after any call |
| Ledger.ProcessIdempotent | internal/repository/balance.go:132-149 | replaying a committed operation is reported as a duplicate and leaves balances and rows as they were |
| Usecase.RequestOperation | internal/usecase/balance.go:28-34 | the operation copies tx id, account, source, state and amount from the request and starts unapplied and uncanceled |
| Usecase.Process | internal/usecase/balance.go:21-68 | OK iff the tx id is new, the guard passes and no statement fails, carrying the stored new balance, and then the tables differ only by that account's new balance and one appended applied row for the request; AlreadyProcessed iff the tx id is known, reporting the post-upsert snapshot and writing no row; RejectedNegative iff the tx id is new, the account exists, the guard refuses and the re-read succeeds, keeping nothing and reporting the unchanged balance and the account's stored `updated_at`; `ErrNotFound` iff a refused first operation hits an unseen account; other errors pass through unchanged; every response echoes the tx id |
| Usecase.GetBalance | internal/usecase/balance.go:70-84 | succeeds iff the account exists and the read does not fail, returning its stored balance and `updated_at`; otherwise it returns the repository's error |
| Usecase.ProcessThenGetBalance | internal/usecase/balance.go:70-84 | after an OK answer, reading the balance returns exactly the balance and timestamp that answer reported |
| Usecase.ProcessRetryIsAlreadyProcessed | internal/usecase/balance.go:38-45 | a retried request after success answers AlreadyProcessed with the balance the first call produced and changes nothing |
| Selection.EligibleOps | internal/scheduler/selection.go:17-18 | keeps exactly the applied, uncanceled rows, and nothing else |
| Selection.RankRanked | internal/scheduler/selection.go:15 | the ranking orders rows by `created_at` descending, then id descending, and is a permutation of its input |
| Selection.RankingIsUnique | internal/scheduler/selection.go:15 | when ids identify rows, any two orderings of the same rows under this order are equal, so the row numbers are determined |
| Selection.OddLatest | internal/scheduler/selection.go:20-22 | returns min(10, ceil(n/2)) candidates, the k-th being rank 2k+1, in ascending rank, all from ranks 1..19 |
| Selection.SelectOddLatest | internal/scheduler/selection.go:9-51 | fails iff the query fails; otherwise it yields the odd-rank recency selection of the eligible rows |
| Selection.SelectedAreEligible | internal/scheduler/selection.go:17-18 | every candidate names an applied, uncanceled row of the table |
| Selection.TenEligibleSelectsOddRanks | internal/scheduler/selection.go:15-22 | with ten eligible rows exactly ranks 1, 3, 5, 7 and 9 are chosen |
| Selection.RankOfWellFormed | internal/scheduler/selection.go:15 | in a well-formed table any recency ordering of the eligible rows is the one the model computes |
| Compensation.CompensatingDelta | internal/scheduler/cancellation.go:121-130 | the compensating delta cancels the operation's signed delta |
| Compensation.CompensatingState | internal/scheduler/cancellation.go:170-179 | the compensating direction differs from the original and negates its effect for every amount |
| Compensation.CompensatingRowUndoes | internal/scheduler/cancellation.go:152-168 | the compensating row has the original amount, the other direction and the opposite effect on the balance |
| Compensation.CancelOne | internal/scheduler/cancellation.go:23-96 | Success iff no statement of the success path fails, the row exists, is eligible and the reversal keeps the balance non-negative; Skipped iff the row loads and is ineligible, or the reversal is refused and the skip path does not fail; Failed on a failed begin or load, a missing row, or any failing statement on the path taken, and then nothing changes; Skipped changes at most notes; Success moves the account by the compensating delta and marks the row cancelled with note "scheduler" |
| Compensation.CompensatingInsert | internal/scheduler/cancellation.go:152-168 | the compensating row goes to the original account under `cancel::<tx_id>`, with source service, applied, and a signed effect equal to the compensating delta |
| Compensation.CancelOneSkipsIneligible | internal/scheduler/cancellation.go:42-49 | an unapplied or already cancelled operation is Skipped with no change |
| Compensation.CancelOneInsufficientFunds | internal/scheduler/cancellation.go:61-73 | when the reversal would go negative, balances stay, only the note becomes "skip: insufficient funds", and the operation stays eligible |
| Compensation.CancelOneSuccessRows | internal/scheduler/cancellation.go:75-95 | a success appends exactly one row `cancel::<tx_id>`, with source service, the inverse state, the original amount, applied and note "auto-cancel"; it marks the original cancelled |
| Compensation.CancelOneKeyCollision | internal/scheduler/cancellation.go:54-87 | when the compensating key already exists, a success appends no row although the balance is reversed, so a ledger whose balances equalled the sums of applied rows no longer does |
| Compensation.CancelOneIdempotent | internal/scheduler/cancellation.go:43-49 | cancelling the same operation again after a success is a Skipped with no change |
| Compensation.CancelOnePreservesWellFormed | internal/scheduler/cancellation.go:23-96 | a cancellation keeps balances non-negative, tx ids unique and ids dense |
| Compensation.CancelOnePreservesLedger | internal/scheduler/cancellation.go:54-95 | when the `cancel::<tx_id>` key is new, each balance still equals the signed sum of its account's applied rows after a cancellation |
| Compensation.CompensationRestoresBalance | internal/scheduler/cancellation.go:121-130 | cancelling a just-applied operation succeeds and restores the account's previous balance |
| Scheduler.CountsPartition | internal/scheduler/scheduler.go:63-89 | every result is counted in exactly one of the three tallies |
| Scheduler.Sweep | internal/scheduler/scheduler.go:65-83 | every candidate is handed to the compensation exactly once, in selection order, and yields one result, failures included |
| Scheduler.LockDiscipline | internal/scheduler/scheduler.go:49-59 | a cycle's trace starts with the lock attempt; without the lock it does nothing else; with it, the release is the last event and happens once |
| Scheduler.CycleWithoutLock | internal/scheduler/scheduler.go:49-52 | a cycle without the lock neither selects nor cancels and changes nothing |
| Scheduler.RunOnce | internal/scheduler/scheduler.go:46-90 | the loop computes the cycle; the tallies add up to the number of results; one result per selected candidate; the lock discipline holds |
| Scheduler.CancelLoop | internal/scheduler/scheduler.go:65-83 | each candidate is compensated in order, failures do not stop the loop, and each counter counts its outcome |
| Scheduler.VisitsEachCandidateOnce | internal/scheduler/scheduler.go:65-66 | between the selection and the unlock, the cycle's trace records one compensation call per selected candidate, in selection order, as the sweep made them |
| Scheduler.CycleSelectionFailure | internal/scheduler/scheduler.go:55-59 | a failed selection ends the cycle with no cancellation, and the lock is still released |
| Scheduler.CyclePreservesWellFormed | internal/scheduler/scheduler.go:46-90 | a cycle keeps every table invariant |
| Scheduler.Ticks | internal/scheduler/scheduler.go:35-43 | one report per tick before the first stop, and each report answers a tick |
| Scheduler.TicksOne | internal/scheduler/scheduler.go:40-41 | one tick runs exactly one scheduler cycle on the current tables and reports it |
| Scheduler.TicksAppend | internal/scheduler/scheduler.go:35-43 | ticks compose: the cycles of `s + t` are those of `s` followed by those of `t` run on the tables `s` left |
| Scheduler.TicksStopTruncates | internal/scheduler/scheduler.go:37-39 | a stop ends the loop: no signal after it has any effect |
| Scheduler.Run | internal/scheduler/scheduler.go:27-44 | one cycle runs before the first tick, then one per tick; the first tick's report is the cycle run on the tables the first cycle left |
| Scheduler.RunThenTicks | internal/scheduler/scheduler.go:33-43 | a run over `s + t`, with `s` free of stops, is the run over `s` followed by the tick loop over `t` from the tables it left |
| Scheduler.RunStoppedAtOnce | internal/scheduler/scheduler.go:33-39 | stopped before any tick, the run has done exactly the first cycle |
| Scheduler.RunPreservesWellFormed | internal/scheduler/scheduler.go:27-44 | however many cycles run, balances stay non-negative and the table invariants hold |
| Mapping.MapProtoSource | internal/transport/mapping.go:10-21 | GAME, PAYMENT and SERVICE map to the domain source with that wire name; every other value is InvalidArgument |
| Mapping.MapProtoState | internal/transport/mapping.go:23-32 | DEPOSIT and WITHDRAW map to the domain state with that wire name; every other value is InvalidArgument |
| Mapping.ProtoEnumsRoundTrip | internal/transport/mapping.go:10-32 | every domain source and state survives the trip over the wire |
| Mapping.MapDomainStatus | internal/transport/mapping.go:34-45 | codes 1 and 2 map to AlreadyProcessed and RejectedNegative, and only those codes do |
| Mapping.StatusRoundTrip | internal/transport/mapping.go:34-45 | each of the three statuses reaches the client intact, and an unknown code reads as OK |
| ErrorMapping.MapDomainError | internal/transport/errors.go:11-22 | NotFound iff ErrNotFound, AlreadyExists iff ErrDuplicateTx, InvalidArgument iff ErrNegativeBalance, Internal iff any other error |
| ErrorMapping.InternalErrorsHideCause | internal/transport/errors.go:21 | two storage failures map to the same status, whose message does not reveal the cause |
| Validation.ValidateProcessRequest | internal/transport/validation.go:11-28 | passes iff no required field is missing; otherwise it reports the first missing field in the order account_id, tx_id, amount, source, state |
| Validation.ValidateAccountID | internal/transport/validation.go:30-41 | accepts iff the id is non-empty and parses, returning the parsed UUID; all rejections are InvalidArgument, and "account_id is required" is used exactly for the empty id |
| Validation.ValidateAmount | internal/transport/validation.go:43-62 | accepts iff the amount is non-empty, parses, is positive and has exponent >= -2, returning the parsed decimal; all rejections are InvalidArgument |
| Validation.AcceptedAmountIsWholeCents | internal/transport/validation.go:53-61 | an accepted amount times 100 is exactly the positive integer of cents the ledger stores |
| Validation.PlacesAreReadFromTheText | internal/transport/validation.go:57-59 | 1.500 is refused while 1.50, of equal value, is accepted: the rule reads the parsed exponent |
| Validation.ValidateTxID | internal/transport/validation.go:64-74 | accepts iff the UTF-8 byte length is between 1 and 128; rejections are InvalidArgument |
| Validation.TxIdLimitCountsBytes | internal/transport/validation.go:69 | the 128 limit counts bytes: for ids of w-byte characters the limit is 128/w characters |
| Scenarios.DepositReplayRejectWithdraw | internal/usecase/balance.go:21-68 | deposit 50.00, its replay, a refused 80.00 withdrawal and a 30.00 withdrawal leave 20.00 and two rows |
| Scenarios.ClientKeyTakesCompensationSlot | internal/scheduler/cancellation.go:54-87 | with a client row "cancel::t1", cancelling "t1" succeeds, writes no row, and leaves a balance of 1.00 against applied rows summing to 6.00 |
| Scenarios.CancelSkippedForLackOfFunds | internal/scheduler/cancellation.go:61-73 | cancelling that 50.00 deposit against 20.00 is skipped, and the deposit stays eligible |

## Left out

- `cmd/app/main.go`, `internal/server/server.go`, `internal/db/db.go`, `internal/config/config.go` and `internal/logger/logger.go` are not part of this model: they hold bootstrap, configuration, connection pooling and logging, and no ledger logic.
- `internal/transport/server.go` is not part of this model. Its gRPC wiring, health checks and listener are I/O. Its copies of the three enum mappers are the same as those in `mapping.go`, which is what the model follows.
- The advisory lock (`internal/scheduler/lock.go`) is an oracle bit per cycle. PostgreSQL session-lock semantics over a connection pool, and exclusion across processes, are not modelled.
- Concurrency is not modelled: row locks, isolation levels, and races between the engine and the scheduler. Each transaction is one atomic step.
- UUID parsing and decimal string parsing are library code and are parameters. The decimal is the `(coefficient, exponent)` the parser returns.
- Decimal balances are integer cents. This is exact for every amount validation accepts. Reading a stored balance back as a decimal is not modelled, so the repository's parse-failure branch after the update is absent.
- Operation ids are dense (the next id is the row count plus one). Sequence gaps left by rolled-back inserts are not modelled. The compensation proofs use the density to find a row by id, and `Compensation.CompensationRestoresBalance` names the new row by the id `|ops| + 1`. With gaps those would have to look the row up by tx id instead.
- `created_at` of an inserted row and `updated_at` of a freshly upserted account are taken to be the transaction's clock value.
- The `default` branches of `calculateCompensatingDelta` and `getCompensatingState` cannot be reached, because `State` has only two values here.
- A failed commit on the no-change skip path of `cancelOne` is only logged, and the result is still `Skipped`. The model gives it no failure point.
- Error wrapping with context strings is a single `ErrStorage(context)` error. Messages are not compared.
- Go's `select` between a tick and the context's end is resolved by the order of the `Signal` sequence. Only a finite prefix of a run is modelled.
- The numbering of the protobuf enums is not modelled; unknown wire values are kept as `...Unrecognized(number)`.
- Strings are sequences of Unicode scalar values. `Validation.Utf8Length` counts their UTF-8 bytes. Invalid UTF-8 in a Go string is not modelled.
- Logging and the ticker period are not modelled.
- All candidates of one cycle share the cycle's clock value (`CycleEnv.now`). In the code each `cancelOne` transaction reads its own `now()`, so their timestamps can differ by the time the loop takes.
- Compensation.CancelOnePreservesLedger: requires the `cancel::<tx_id>` key to be new, because the code breaks the invariant otherwise. `Compensation.CancelOneKeyCollision` proves that break. The model keeps the code's behaviour rather than a corrected one, because the intended handling of a taken key (refuse, or reverse without a row) is not evident.
- Ledger.ProcessPreservesWellFormed: requires a positive amount. The repository does not check this itself; the edge validation guarantees it.

=== FILE: compensation.dfy ===
/** The compensation procedure the scheduler runs for one candidate, in its
    own transaction: re-read the operation, skip it unless it is applied and
    uncanceled, apply the inverse delta under the non-negative guard, then
    either annotate the operation as skipped or write the compensating row
    `cancel::<tx_id>` and mark the original canceled. */
module Compensation {
  import opened Domain
  import opened Tables
  import opened Ledger
  import Selection

  datatype CancelResult = Success | Skipped | Failed

  /** The statements of `cancelOne` that can fail. A failed commit of the
      no-op path is only logged, so it has no tag. */
  datatype CancelStep =
    | BeginCancel
    | LoadOperation
    | ApplyCompensation
    | MarkSkipped
    | CommitSkip
    | InsertCompensating
    | MarkCancelled
    | CommitCancel

  const SkipNote: string := "skip: insufficient funds"
  const CancelNote: string := "scheduler"
  const CompensationNote: string := "auto-cancel"

  /** Statements executed by a cancellation that succeeds. */
  const SuccessPath: set<CancelStep> :=
    {BeginCancel, LoadOperation, ApplyCompensation, InsertCompensating, MarkCancelled, CommitCancel}
  /** Statements executed when the guard refuses the reversal. */
  const SkipPath: set<CancelStep> := {BeginCancel, LoadOperation, ApplyCompensation, MarkSkipped, CommitSkip}

  /** The delta that undoes an operation. */
  function CompensatingDelta(state: State, amount: int): (d: int)
    ensures d + SignedDelta(state, amount) == 0
  {
    match state
    case Deposit => -amount
    case Withdraw => amount
  }

  /** The direction of the compensating entry: the other direction. */
  function CompensatingState(state: State): (t: State)
    ensures t != state
    ensures forall amount :: SignedDelta(t, amount) == -SignedDelta(state, amount)
  {
    match state
    case Deposit => Withdraw
    case Withdraw => Deposit
  }

  /** The idempotency key of the compensating entry. */
  function CompensatingTxId(txId: string): string
  {
    "cancel::" + txId
  }

  function Abs(x: int): nat
  {
    if x < 0 then -x else x
  }

  /** The compensating row: source `service`, the inverse direction, the
      magnitude of the delta, already applied. Its own effect on the balance
      is the compensating delta. */
  function CompensatingInsert(op: Operation, delta: int): (ins: OpInsert)
    ensures ins.accountId == op.accountId && ins.applied
    ensures ins.txId == CompensatingTxId(op.txId) && ins.source == Service
    ensures op.amount >= 0 && delta == CompensatingDelta(op.state, op.amount) ==>
              SignedDelta(ins.state, ins.amount) == delta
  {
    OpInsert(CompensatingTxId(op.txId), op.accountId, Service, CompensatingState(op.state),
             Abs(delta), true, Some(CompensationNote))
  }

  lemma CompensatingRowUndoes(op: Operation, now: Timestamp, id: nat)
    requires op.amount >= 0
    ensures var row := Stored(CompensatingInsert(op, CompensatingDelta(op.state, op.amount)), id, now);
            && row.amount == op.amount
            && row.state != op.state
            && SignedDelta(row.state, row.amount) == -SignedDelta(op.state, op.amount)
  {
  }

  /** The account of `op` can take the reversal without going negative. */
  predicate CanReverse(db: Db, op: Operation)
  {
    op.accountId in db.accounts && db.accounts[op.accountId].balance + CompensatingDelta(op.state, op.amount) >= 0
  }

  /** Cancels the operation with primary key `opId`. */
  function CancelOne(db: Db, opId: int, now: Timestamp, faults: set<CancelStep>): (r: (Db, CancelResult))
    // which outcome is reported, in terms of the inputs
    ensures r.1 == Success <==>
              && faults !! SuccessPath
              && IndexOfId(db.ops, opId).Some?
              && Selection.Eligible(db.ops[IndexOfId(db.ops, opId).value])
              && CanReverse(db, db.ops[IndexOfId(db.ops, opId).value])
    ensures r.1 == Skipped <==>
              && faults !! {BeginCancel, LoadOperation}
              && IndexOfId(db.ops, opId).Some?
              && var op := db.ops[IndexOfId(db.ops, opId).value];
                 (!Selection.Eligible(op) || (faults !! SkipPath && !CanReverse(db, op)))
    // a storage failure, or a missing row, is reported as Failed
    ensures BeginCancel in faults || LoadOperation in faults || IndexOfId(db.ops, opId).None? ==> r == (db, Failed)
    ensures IndexOfId(db.ops, opId).Some? && Selection.Eligible(db.ops[IndexOfId(db.ops, opId).value]) ==>
              var op := db.ops[IndexOfId(db.ops, opId).value];
              && (ApplyCompensation in faults ==> r == (db, Failed))
              && (!CanReverse(db, op) && faults * {MarkSkipped, CommitSkip} != {} ==> r == (db, Failed))
              && (CanReverse(db, op) && faults * {InsertCompensating, MarkCancelled, CommitCancel} != {} ==> r == (db, Failed))
    ensures r.1 == Failed ==> r.0 == db
    // a skip changes at most the note of the operation
    ensures r.1 == Skipped ==>
              && r.0.accounts == db.accounts
              && |r.0.ops| == |db.ops|
              && forall i :: 0 <= i < |db.ops| ==>
                   r.0.ops[i] == db.ops[i].(cancelNote := r.0.ops[i].cancelNote)
    // a success reverses the operation's effect and marks it canceled
    ensures r.1 == Success ==>
              && IndexOfId(db.ops, opId).Some?
              && var i := IndexOfId(db.ops, opId).value;
                 var op := db.ops[i];
                 && Selection.Eligible(op)
                 && op.accountId in db.accounts
                 && r.0.accounts == db.accounts[op.accountId :=
                      AccountRow(db.accounts[op.accountId].balance + CompensatingDelta(op.state, op.amount), now)]
                 && i < |r.0.ops|
                 && r.0.ops[i] == op.(canceledAt := Some(now), cancelNote := Some(CancelNote))
  {
    if BeginCancel in faults then (db, Failed)
    else if LoadOperation in faults then (db, Failed)
    else
      match IndexOfId(db.ops, opId)
      case None => (db, Failed)
      case Some(i) =>
        var op := db.ops[i];
        if !op.applied || op.IsCanceled() then (db, Skipped)
        else
          var delta := CompensatingDelta(op.state, op.amount);
          if ApplyCompensation in faults then (db, Failed)
          else
            match UpdateBalanceGuarded(db, op.accountId, delta, now)
            case None =>
              if MarkSkipped in faults || CommitSkip in faults then (db, Failed)
              else (SetNoteById(db, opId, SkipNote), Skipped)
            case Some(updated) =>
              if InsertCompensating in faults then (db, Failed)
              else
                var inserted := InsertOpIfAbsent(updated, CompensatingInsert(op, delta), now).0;
                if MarkCancelled in faults || CommitCancel in faults then (db, Failed)
                else (SetCanceledById(inserted, opId, now, CancelNote), Success)
  }

  /** An operation that is not applied, or already canceled, is skipped
      without any change. */
  lemma CancelOneSkipsIneligible(db: Db, opId: int, now: Timestamp, faults: set<CancelStep>)
    requires faults !! {BeginCancel, LoadOperation}
    requires IndexOfId(db.ops, opId).Some?
    requires !Selection.Eligible(db.ops[IndexOfId(db.ops, opId).value])
    ensures CancelOne(db, opId, now, faults) == (db, Skipped)
  {
  }

  /** When the reversal would make the balance negative, only the note
      changes; `canceled_at` stays null, so the operation stays eligible. */
  lemma CancelOneInsufficientFunds(db: Db, opId: int, now: Timestamp, faults: set<CancelStep>)
    requires WellFormed(db)
    requires faults !! SkipPath
    requires IndexOfId(db.ops, opId).Some?
    requires var op := db.ops[IndexOfId(db.ops, opId).value];
             && Selection.Eligible(op)
             && db.accounts[op.accountId].balance + CompensatingDelta(op.state, op.amount) < 0
    ensures var i := IndexOfId(db.ops, opId).value;
            var r := CancelOne(db, opId, now, faults);
            && r.1 == Skipped
            && r.0.accounts == db.accounts
            && r.0.ops == db.ops[i := db.ops[i].(cancelNote := Some(SkipNote))]
            && Selection.Eligible(r.0.ops[i])
  {
    var i := IndexOfId(db.ops, opId).value;
    var r := CancelOne(db, opId, now, faults);
    forall j | 0 <= j < |db.ops|
      ensures r.0.ops[j] == db.ops[i := db.ops[i].(cancelNote := Some(SkipNote))][j]
    {
      assert db.ops[j].id == j + 1;
    }
  }

  /** A cancellation writes exactly one compensating row, the inverse of the
      original, when its key is new; the original is marked canceled. The
      compensating row is itself applied and uncanceled, so a later cycle
      may select it in turn. */
  lemma CancelOneSuccessRows(db: Db, opId: int, now: Timestamp, faults: set<CancelStep>)
    requires WellFormed(db)
    requires faults !! SuccessPath
    requires IndexOfId(db.ops, opId).Some?
    requires var op := db.ops[IndexOfId(db.ops, opId).value];
             && Selection.Eligible(op)
             && db.accounts[op.accountId].balance + CompensatingDelta(op.state, op.amount) >= 0
             && IndexOfTx(db.ops, CompensatingTxId(op.txId)).None?
    ensures var i := IndexOfId(db.ops, opId).value;
            var op := db.ops[i];
            var r := CancelOne(db, opId, now, faults);
            && r.1 == Success
            && r.0.ops == db.ops[i := op.(canceledAt := Some(now), cancelNote := Some(CancelNote))]
                          + [Stored(CompensatingInsert(op, CompensatingDelta(op.state, op.amount)), |db.ops| + 1, now)]
            && !Selection.Eligible(r.0.ops[i])
            && Selection.Eligible(r.0.ops[|db.ops|])
  {
    var i := IndexOfId(db.ops, opId).value;
    var op := db.ops[i];
    var r := CancelOne(db, opId, now, faults);
    var expected := db.ops[i := op.(canceledAt := Some(now), cancelNote := Some(CancelNote))]
                    + [Stored(CompensatingInsert(op, CompensatingDelta(op.state, op.amount)), |db.ops| + 1, now)];
    forall j | 0 <= j < |r.0.ops|
      ensures r.0.ops[j] == expected[j]
    {
      if j < |db.ops| {
        assert db.ops[j].id == j + 1;
      }
    }
  }

  /** A pre-existing row with the compensating key (a client may have used
      it) suppresses the compensating entry while the balance is still
      reversed and the original, still applied, is marked canceled: the
      balance then no longer equals the sum of the applied rows. */
  lemma CancelOneKeyCollision(db: Db, opId: int, now: Timestamp, faults: set<CancelStep>)
    requires CancelOne(db, opId, now, faults).1 == Success
    requires IndexOfTx(db.ops, CompensatingTxId(db.ops[IndexOfId(db.ops, opId).value].txId)).Some?
    ensures |CancelOne(db, opId, now, faults).0.ops| == |db.ops|
    ensures WellFormed(db) && LedgerConsistent(db) ==> !LedgerConsistent(CancelOne(db, opId, now, faults).0)
  {
    var r := CancelOne(db, opId, now, faults);
    if WellFormed(db) && LedgerConsistent(db) {
      var i := IndexOfId(db.ops, opId).value;
      var op := db.ops[i];
      var delta := CompensatingDelta(op.state, op.amount);
      var updated := UpdateBalanceGuarded(db, op.accountId, delta, now).value;
      assert InsertOpIfAbsent(updated, CompensatingInsert(op, delta), now).0 == updated;
      assert r.0 == SetCanceledById(updated, opId, now, CancelNote);
      forall j | 0 <= j < |db.ops|
        ensures Effect(r.0.ops[j], op.accountId) == Effect(db.ops[j], op.accountId)
      {
      }
      SumCongruent(db.ops, r.0.ops, op.accountId);
      assert r.0.accounts[op.accountId].balance == SumApplied(db.ops, op.accountId) + delta;
    }
  }

  /** After a success, cancelling the same operation again is a skip that
      changes nothing: there is no double reversal. */
  lemma CancelOneIdempotent(db: Db, opId: int, now: Timestamp, faults: set<CancelStep>,
                            now': Timestamp, faults': set<CancelStep>)
    requires WellFormed(db)
    requires CancelOne(db, opId, now, faults).1 == Success
    requires faults' !! {BeginCancel, LoadOperation}
    ensures var after := CancelOne(db, opId, now, faults).0;
            CancelOne(after, opId, now', faults') == (after, Skipped)
  {
    var after := CancelOne(db, opId, now, faults).0;
    var i := IndexOfId(db.ops, opId).value;
    assert after.ops[i].id == opId;
    var k := IndexOfId(after.ops, opId);
    assert k.Some?;
    if k.value != i {
      assert after.ops[k.value].canceledAt.Some? by {
        if k.value < |db.ops| {
          assert db.ops[k.value].id == k.value + 1;
        }
      }
    }
  }

  /** A cancellation keeps every table invariant. */
  lemma CancelOnePreservesWellFormed(db: Db, opId: int, now: Timestamp, faults: set<CancelStep>)
    requires WellFormed(db)
    ensures WellFormed(CancelOne(db, opId, now, faults).0)
  {
    var r := CancelOne(db, opId, now, faults);
    if r.1 == Success {
      var i := IndexOfId(db.ops, opId).value;
      var op := db.ops[i];
      var delta := CompensatingDelta(op.state, op.amount);
      var updated := UpdateBalanceGuarded(db, op.accountId, delta, now).value;
      var ins := InsertOpIfAbsent(updated, CompensatingInsert(op, delta), now);
      var mid := ins.0;
      assert WellFormed(mid) by {
        if ins.1 {
          forall a, b | 0 <= a < b < |mid.ops|
            ensures mid.ops[a].txId != mid.ops[b].txId
          {
            if b == |db.ops| {
              assert mid.ops[a] == db.ops[a];
            }
          }
        }
      }
      assert r.0 == SetCanceledById(mid, opId, now, CancelNote);
      SameKeysPreserveWellFormed(mid, r.0.ops);
    } else if r.1 == Skipped {
      SameKeysPreserveWellFormed(db, r.0.ops);
    }
  }

  /** A cancellation whose compensating key is new keeps every balance equal
      to the sum of its applied operations. */
  lemma CancelOnePreservesLedger(db: Db, opId: int, now: Timestamp, faults: set<CancelStep>)
    requires WellFormed(db) && LedgerConsistent(db)
    requires IndexOfId(db.ops, opId).Some? ==>
               IndexOfTx(db.ops, CompensatingTxId(db.ops[IndexOfId(db.ops, opId).value].txId)).None?
    ensures LedgerConsistent(CancelOne(db, opId, now, faults).0)
  {
    var r := CancelOne(db, opId, now, faults);
    if r.1 == Skipped {
      SkipKeepsLedger(db, opId, now, faults);
    } else if r.1 == Success {
      SuccessKeepsLedger(db, opId, now, faults);
    }
  }

  lemma SkipKeepsLedger(db: Db, opId: int, now: Timestamp, faults: set<CancelStep>)
    requires LedgerConsistent(db)
    requires CancelOne(db, opId, now, faults).1 == Skipped
    ensures LedgerConsistent(CancelOne(db, opId, now, faults).0)
  {
    var r := CancelOne(db, opId, now, faults);
    StatusRewriteKeepsLedger(db, r.0.ops);
    assert r.0 == db.(ops := r.0.ops);
  }

  lemma SuccessKeepsLedger(db: Db, opId: int, now: Timestamp, faults: set<CancelStep>)
    requires WellFormed(db) && LedgerConsistent(db)
    requires IndexOfId(db.ops, opId).Some? ==>
               IndexOfTx(db.ops, CompensatingTxId(db.ops[IndexOfId(db.ops, opId).value].txId)).None?
    requires CancelOne(db, opId, now, faults).1 == Success
    ensures LedgerConsistent(CancelOne(db, opId, now, faults).0)
  {
    var i := IndexOfId(db.ops, opId).value;
    var op := db.ops[i];
    var delta := CompensatingDelta(op.state, op.amount);
    var marked := db.ops[i := op.(canceledAt := Some(now), cancelNote := Some(CancelNote))];
    CancelOneSuccessRows(db, opId, now, faults);
    StatusRewriteKeepsLedger(db, marked);
    CompensatingRowKeepsLedger(db.(ops := marked), op, delta, now);
  }

  /** Rewriting status columns other than `applied` keeps every sum. */
  lemma StatusRewriteKeepsLedger(db: Db, ops: seq<Operation>)
    requires LedgerConsistent(db) && |ops| == |db.ops|
    requires forall i :: 0 <= i < |ops| ==>
               && ops[i].applied == db.ops[i].applied && ops[i].accountId == db.ops[i].accountId
               && ops[i].state == db.ops[i].state && ops[i].amount == db.ops[i].amount
    ensures LedgerConsistent(db.(ops := ops))
  {
    forall a | a in db.accounts
      ensures db.accounts[a].balance == SumApplied(ops, a)
    {
      SumCongruent(db.ops, ops, a);
    }
  }

  /** Appending the compensating row while moving the balance by its delta
      keeps every sum. */
  lemma CompensatingRowKeepsLedger(db: Db, op: Operation, delta: int, now: Timestamp)
    requires LedgerConsistent(db) && op.accountId in db.accounts && op.amount >= 0
    requires delta == CompensatingDelta(op.state, op.amount)
    ensures var row := Stored(CompensatingInsert(op, delta), |db.ops| + 1, now);
            var balance := db.accounts[op.accountId].balance + delta;
            LedgerConsistent(Db(db.accounts[op.accountId := AccountRow(balance, now)], db.ops + [row]))
  {
    var row := Stored(CompensatingInsert(op, delta), |db.ops| + 1, now);
    CompensatingRowUndoes(op, now, |db.ops| + 1);
    forall a | a in db.accounts
      ensures SumApplied(db.ops + [row], a) == SumApplied(db.ops, a) + (if a == op.accountId then delta else 0)
    {
      SumAppend(db.ops, row, a);
    }
  }

  /** Compensating an operation the ledger has just applied restores the
      balance the account had before it. */
  lemma CompensationRestoresBalance(db: Db, op: Operation, now: Timestamp, txFaults: set<TxStep>,
                                    now': Timestamp)
    requires WellFormed(db)
    requires op.amount > 0
    requires ProcessTransaction(db, op, now, txFaults).1.err.None?
    requires IndexOfTx(db.ops, CompensatingTxId(op.txId)).None?
    ensures var applied := ProcessTransaction(db, op, now, txFaults).0;
            var cancelled := CancelOne(applied, |db.ops| + 1, now', {});
            && cancelled.1 == Success
            && cancelled.0.accounts[op.accountId].balance == StartingBalance(db, op.accountId)
  {
    var applied := ProcessTransaction(db, op, now, txFaults).0;
    ProcessPreservesWellFormed(db, op, now, txFaults);
    IndexOfIdDense(applied, |db.ops| + 1);
    assert applied.ops[|db.ops|].txId == op.txId;
    assert |CompensatingTxId(op.txId)| == |op.txId| + 8;
    assert IndexOfTx(applied.ops, CompensatingTxId(op.txId)).None? by {
      forall j | 0 <= j < |applied.ops|
        ensures applied.ops[j].txId != CompensatingTxId(op.txId)
      {
        if j < |db.ops| {
          assert applied.ops[j] == db.ops[j];
        }
      }
    }
  }
}

=== FILE: domain.dfy ===
/** Entities of the balance ledger: operation sources and directions, accounts,
    ledger operations, processing statuses and the domain error taxonomy.

    Money is held in minor currency units (cents) as an unbounded `int`; the
    transport edge (module Validation) proves that every accepted decimal
    amount is a whole number of cents. Timestamps are opaque clock values. */
module Domain {

  datatype Option<+T> = None | Some(value: T)

  datatype Result<+T, +E> = Ok(value: T) | Err(error: E)

  /** An opaque clock value (the database's `now()`). */
  type Timestamp = int

  /** The 16 bytes of an account UUID. */
  type AccountId = seq<bv8>

  /** Where an operation came from. */
  datatype Source = Game | Payment | Service

  /** The direction of an operation. */
  datatype State = Deposit | Withdraw

  /** The text stored in the `source` column. */
  function SourceName(s: Source): string
  {
    match s
    case Game => "game"
    case Payment => "payment"
    case Service => "service"
  }

  /** Reads a `source` column value back; only the three names are sources. */
  function SourceFromName(name: string): (r: Option<Source>)
    ensures r.Some? ==> SourceName(r.value) == name
    ensures r.None? ==> forall s: Source :: SourceName(s) != name
  {
    if name == "game" then Some(Game)
    else if name == "payment" then Some(Payment)
    else if name == "service" then Some(Service)
    else None
  }

  /** The text stored in the `state` column. */
  function StateName(s: State): string
  {
    match s
    case Deposit => "deposit"
    case Withdraw => "withdraw"
  }

  /** Reads a `state` column value back; only the two names are states. */
  function StateFromName(name: string): (r: Option<State>)
    ensures r.Some? ==> StateName(r.value) == name
    ensures r.None? ==> forall s: State :: StateName(s) != name
  {
    if name == "deposit" then Some(Deposit)
    else if name == "withdraw" then Some(Withdraw)
    else None
  }

  /** Distinct sources and states are stored under distinct names, so every
      stored value reads back as the value that was written. */
  lemma NamesRoundTrip(s: Source, t: State)
    ensures SourceFromName(SourceName(s)) == Some(s)
    ensures StateFromName(StateName(t)) == Some(t)
    ensures forall s': Source :: SourceName(s') == SourceName(s) ==> s' == s
    ensures forall t': State :: StateName(t') == StateName(t) ==> t' == t
  {
  }

  /** An account snapshot: balance in cents and the time of the last change. */
  datatype Account = Account(id: AccountId, balance: int, updatedAt: Timestamp)

  /** One row of the append-only operations table. */
  datatype Operation = Operation(
    id: nat,
    txId: string,
    accountId: AccountId,
    source: Source,
    state: State,
    amount: int,
    createdAt: Timestamp,
    applied: bool,
    canceledAt: Option<Timestamp>,
    cancelNote: Option<string>)
  {
    /** An operation counts as canceled exactly when `canceled_at` is set;
        the note is independent of it. */
    predicate IsCanceled() {
      canceledAt.Some?
    }
  }

  /** Outcome of processing a request, with its numeric code. */
  datatype ProcessStatus = StatusOK | StatusAlreadyProcessed | StatusRejectedNegative

  function StatusCode(s: ProcessStatus): int
  {
    match s
    case StatusOK => 0
    case StatusAlreadyProcessed => 1
    case StatusRejectedNegative => 2
  }

  /** A validated request to apply one operation. */
  datatype ProcessRequest = ProcessRequest(
    accountId: AccountId,
    source: Source,
    state: State,
    amount: int,
    txId: string)

  datatype ProcessResponse = ProcessResponse(
    txId: string,
    status: ProcessStatus,
    balance: int,
    timestamp: Timestamp)

  datatype BalanceResponse = BalanceResponse(balance: int, updatedAt: Timestamp)

  /** The sentinel errors, plus a storage failure labelled by the statement
      that failed. */
  datatype Error =
    | ErrNotFound
    | ErrDuplicateTx
    | ErrNegativeBalance
    | ErrStorage(context: string)
}

=== FILE: error_mapping.dfy ===
/** Translation of domain errors into gRPC status errors. The transport
    handlers of the system return use-case errors without calling this
    translation; it is modelled as written. */
module ErrorMapping {
  import opened Domain
  import opened Wire

  /** Each sentinel gets its own code; everything else is an internal error
      whose message does not reveal the cause. */
  function MapDomainError(e: Error): (r: StatusError)
    ensures r.code == NotFound <==> e == ErrNotFound
    ensures r.code == AlreadyExists <==> e == ErrDuplicateTx
    ensures r.code == InvalidArgument <==> e == ErrNegativeBalance
    ensures r.code == Internal <==> e.ErrStorage?
  {
    match e
    case ErrNotFound => StatusError(NotFound, "account not found")
    case ErrDuplicateTx => StatusError(AlreadyExists, "transaction already exists")
    case ErrNegativeBalance => StatusError(InvalidArgument, "insufficient balance")
    case ErrStorage(_) => StatusError(Internal, "internal server error")
  }

  /** Two storage failures are indistinguishable to the client. */
  lemma InternalErrorsHideCause(a: string, b: string)
    ensures MapDomainError(ErrStorage(a)) == MapDomainError(ErrStorage(b))
    ensures MapDomainError(ErrStorage(a)).message == "internal server error"
  {
  }
}

=== FILE: ledger.dfy ===
/** The ledger repository: the transaction that applies one operation
    (upsert the account, insert the operation if its `tx_id` is new, apply a
    signed delta under the non-negative guard, mark it applied, commit), the
    plain reads, and the ledger invariants the transaction keeps.

    A storage failure of any statement is modelled by naming that statement
    in a fault set; the deferred rollback then discards everything the
    transaction wrote, so the result state is the input state. */
module Ledger {
  import opened Domain
  import opened Tables

  /** The statements of `ProcessTransaction` that can fail. */
  datatype TxStep =
    | BeginTx
    | UpsertAccount
    | InsertOperation
    | SelectSnapshot
    | CommitDuplicate
    | UpdateBalance
    | MarkApplied
    | CommitTx

  /** Statements executed when the `tx_id` is already present. */
  const DuplicatePath: set<TxStep> := {BeginTx, UpsertAccount, InsertOperation, SelectSnapshot, CommitDuplicate}
  /** Statements executed up to a failed non-negative guard. */
  const RejectPath: set<TxStep> := {BeginTx, UpsertAccount, InsertOperation, UpdateBalance}
  /** Statements executed when the operation is applied. */
  const ApplyPath: set<TxStep> := {BeginTx, UpsertAccount, InsertOperation, UpdateBalance, MarkApplied, CommitTx}

  /** The repository's `(*Account, error)` pair. */
  datatype Reply = Reply(account: Option<Account>, err: Option<Error>)

  function StorageFailure(context: string): Reply
  {
    Reply(None, Some(ErrStorage(context)))
  }

  /** The balance effect of an operation: `+amount` for a deposit, `-amount`
      for a withdrawal. */
  function SignedDelta(state: State, amount: int): (d: int)
    ensures d == amount || d == -amount
    ensures amount > 0 ==> (d > 0 <==> state == Deposit)
  {
    match state
    case Deposit => amount
    case Withdraw => -amount
  }

  /** The balance the account has once the idempotent upsert has run. */
  function StartingBalance(db: Db, id: AccountId): int
  {
    if id in db.accounts then db.accounts[id].balance else 0
  }

  /** The columns `sqlInsertOperation` writes for a request. */
  function InsertOf(op: Operation): OpInsert
  {
    OpInsert(op.txId, op.accountId, op.source, op.state, op.amount, false, None)
  }

  /** The operation row as it stands after a successful commit. */
  function AppliedRow(db: Db, op: Operation, now: Timestamp): Operation
  {
    Stored(InsertOf(op), |db.ops| + 1, now).(applied := true)
  }

  /** `db'` differs from `db` at most by the account row the upsert creates. */
  ghost predicate UpsertOnly(db: Db, db': Db, id: AccountId, now: Timestamp)
  {
    && db'.ops == db.ops
    && db'.accounts.Keys == db.accounts.Keys + {id}
    && (forall a :: a in db.accounts ==> db'.accounts[a] == db.accounts[a])
    && (id !in db.accounts ==> db'.accounts[id] == AccountRow(0, now))
  }

  /** Marking the freshly appended row applied touches no other row. */
  lemma MarkAppliedFresh(db: Db, row: Operation)
    requires forall i :: 0 <= i < |db.ops| ==> db.ops[i].txId != row.txId
    ensures SetAppliedByTx(db.(ops := db.ops + [row]), row.txId)
         == db.(ops := db.ops + [row.(applied := true)])
  {
    var marked := SetAppliedByTx(db.(ops := db.ops + [row]), row.txId);
    assert marked.ops == db.ops + [row.(applied := true)];
  }

  /** Applies one operation in a single transaction. */
  function ProcessTransaction(db: Db, op: Operation, now: Timestamp, faults: set<TxStep>): (r: (Db, Reply))
    // every outcome other than the duplicate signal is either a commit with
    // an account or a rollback with an error
    ensures r.1.err.Some? && r.1.err.value != ErrDuplicateTx ==> r.0 == db && r.1.account.None?
    ensures r.1.err.None? || r.1.err == Some(ErrDuplicateTx) ==> r.1.account.Some?
    // the transaction itself never reports a missing row
    ensures r.1.err != Some(ErrNotFound)
    // a known tx_id: only the upsert survives, and the snapshot is the
    // requesting account's
    ensures r.1.err == Some(ErrDuplicateTx) <==>
              faults !! DuplicatePath && IndexOfTx(db.ops, op.txId).Some?
    ensures r.1.err == Some(ErrDuplicateTx) ==>
              && UpsertOnly(db, r.0, op.accountId, now)
              && r.1.account == Some(Account(op.accountId, StartingBalance(db, op.accountId),
                                             r.0.accounts[op.accountId].updatedAt))
    // the guard refuses exactly the deltas that would drive the balance negative
    ensures r.1.err == Some(ErrNegativeBalance) <==>
              && faults !! RejectPath
              && IndexOfTx(db.ops, op.txId).None?
              && StartingBalance(db, op.accountId) + SignedDelta(op.state, op.amount) < 0
    ensures r.1.err.None? <==>
              && faults !! ApplyPath
              && IndexOfTx(db.ops, op.txId).None?
              && StartingBalance(db, op.accountId) + SignedDelta(op.state, op.amount) >= 0
    // a commit moves the balance by the delta and appends one applied row
    ensures r.1.err.None? ==>
              var balance := StartingBalance(db, op.accountId) + SignedDelta(op.state, op.amount);
              && r.0.accounts == db.accounts[op.accountId := AccountRow(balance, now)]
              && r.0.ops == db.ops + [AppliedRow(db, op, now)]
              && r.1.account == Some(Account(op.accountId, balance, now))
  {
    if BeginTx in faults then (db, StorageFailure("begin"))
    else if UpsertAccount in faults then (db, StorageFailure("create account"))
    else
      var withAccount := CreateAccountIfAbsent(db, op.accountId, now);
      if InsertOperation in faults then (db, StorageFailure("insert op"))
      else
        var insert := InsertOpIfAbsent(withAccount, InsertOf(op), now);
        var inserted := insert.0;
        if !insert.1 then
          if SelectSnapshot in faults then (db, StorageFailure("select balance (dup)"))
          else if CommitDuplicate in faults then (db, StorageFailure("commit (dup)"))
          else
            var row := inserted.accounts[op.accountId];
            (inserted, Reply(Some(Account(op.accountId, row.balance, row.updatedAt)), Some(ErrDuplicateTx)))
        else
          var delta := SignedDelta(op.state, op.amount);
          if UpdateBalance in faults then (db, StorageFailure("update balance"))
          else
            match UpdateBalanceGuarded(inserted, op.accountId, delta, now)
            case None => (db, Reply(None, Some(ErrNegativeBalance)))
            case Some(updated) =>
              if MarkApplied in faults then (db, StorageFailure("mark applied"))
              else if CommitTx in faults then (db, StorageFailure("commit"))
              else
                var row := updated.accounts[op.accountId];
                MarkAppliedFresh(withAccount.(accounts := updated.accounts), Stored(InsertOf(op), |db.ops| + 1, now));
                (SetAppliedByTx(updated, op.txId), Reply(Some(Account(op.accountId, row.balance, row.updatedAt)), None))
  }

  /** Reads one account; `ErrNotFound` when no row matches. */
  function GetAccount(db: Db, id: AccountId, fault: bool): (r: Result<Account, Error>)
    ensures r.Ok? ==> id in db.accounts
                      && r.value == Account(id, db.accounts[id].balance, db.accounts[id].updatedAt)
    ensures r.Ok? <==> !fault && id in db.accounts
    ensures r == Err(ErrNotFound) <==> !fault && id !in db.accounts
    ensures r.Err? ==> r.error == ErrNotFound || r.error.ErrStorage?
  {
    if fault then Err(ErrStorage("get account query"))
    else if id !in db.accounts then Err(ErrNotFound)
    else Ok(Account(id, db.accounts[id].balance, db.accounts[id].updatedAt))
  }

  /** The stand-alone idempotent account upsert. */
  function CreateAccount(db: Db, id: AccountId, now: Timestamp, fault: bool): (r: (Db, Option<Error>))
    ensures fault <==> r.1.Some?
    ensures fault ==> r.0 == db
    ensures !fault ==> UpsertOnly(db, r.0, id, now) && id in r.0.accounts
  {
    if fault then (db, Some(ErrStorage("create account")))
    else (CreateAccountIfAbsent(db, id, now), None)
  }

  /** Reads the operation holding `txId`; `ErrNotFound` when no row matches. */
  function GetOperationByTxID(db: Db, txId: string, fault: bool): (r: Result<Operation, Error>)
    ensures r.Ok? ==> r.value in db.ops && r.value.txId == txId
    ensures r.Ok? <==> !fault && IndexOfTx(db.ops, txId).Some?
    ensures r == Err(ErrNotFound) <==> !fault && forall op :: op in db.ops ==> op.txId != txId
    ensures r.Err? ==> r.error == ErrNotFound || r.error.ErrStorage?
  {
    if fault then Err(ErrStorage("get operation query"))
    else
      match IndexOfTx(db.ops, txId)
      case None => Err(ErrNotFound)
      case Some(i) => Ok(db.ops[i])
  }

  /** The stand-alone upsert is idempotent, and the account can be read
      right after it: a new account with balance 0 at the clock value, an
      existing one unchanged. */
  lemma CreateAccountThenGet(db: Db, id: AccountId, now: Timestamp, now': Timestamp)
    ensures var first := CreateAccount(db, id, now, false);
            && CreateAccount(first.0, id, now', false) == first
            && GetAccount(first.0, id, false)
               == Ok(if id in db.accounts then Account(id, db.accounts[id].balance, db.accounts[id].updatedAt)
                     else Account(id, 0, now))
  {
    var first := CreateAccount(db, id, now, false);
    assert first.0 == CreateAccountIfAbsent(db, id, now);
  }

  /** A committed operation is found by its tx id: the read returns exactly
      the one applied row the transaction appended. */
  lemma ProcessThenGetOperation(db: Db, op: Operation, now: Timestamp, faults: set<TxStep>)
    requires ProcessTransaction(db, op, now, faults).1.err.None?
    ensures var r := ProcessTransaction(db, op, now, faults);
            && GetOperationByTxID(r.0, op.txId, false) == Ok(AppliedRow(db, op, now))
            && GetOperationByTxID(r.0, op.txId, false).value.applied
  {
    var r := ProcessTransaction(db, op, now, faults);
    IndexOfTxAppend(db.ops, AppliedRow(db, op, now), op.txId);
  }

  /** Appending a row that holds a tx id no earlier row holds makes it the
      row that the lookup finds. */
  lemma {:induction false} IndexOfTxAppend(ops: seq<Operation>, row: Operation, txId: string)
    requires IndexOfTx(ops, txId).None? && row.txId == txId
    ensures IndexOfTx(ops + [row], txId) == Some(|ops|)
    decreases |ops|
  {
    if |ops| > 0 {
      assert (ops + [row])[1..] == ops[1..] + [row];
      IndexOfTxAppend(ops[1..], row, txId);
    }
  }

  // ---------------------------------------------------------------------
  // The ledger invariant: a balance is the sum of its applied operations.
  // ---------------------------------------------------------------------

  /** What one row contributes to the balance of account `id`. */
  function Effect(op: Operation, id: AccountId): int
  {
    if op.applied && op.accountId == id then SignedDelta(op.state, op.amount) else 0
  }

  /** The sum of the effects of all applied rows of account `id`. */
  function SumApplied(ops: seq<Operation>, id: AccountId): int
  {
    if |ops| == 0 then 0
    else SumApplied(ops[..|ops| - 1], id) + Effect(ops[|ops| - 1], id)
  }

  /** Every stored balance equals the sum of its applied operations. */
  ghost predicate LedgerConsistent(db: Db)
  {
    forall a :: a in db.accounts ==> db.accounts[a].balance == SumApplied(db.ops, a)
  }

  lemma SumAppend(ops: seq<Operation>, op: Operation, id: AccountId)
    ensures SumApplied(ops + [op], id) == SumApplied(ops, id) + Effect(op, id)
  {
    assert (ops + [op])[..|ops|] == ops;
  }

  /** Rows that contribute the same effects give the same sum. */
  lemma {:induction false} SumCongruent(a: seq<Operation>, b: seq<Operation>, id: AccountId)
    requires |a| == |b|
    requires forall i :: 0 <= i < |a| ==> Effect(a[i], id) == Effect(b[i], id)
    ensures SumApplied(a, id) == SumApplied(b, id)
  {
    if |a| > 0 {
      SumCongruent(a[..|a| - 1], b[..|b| - 1], id);
    }
  }

  /** An account without rows has sum zero. */
  lemma {:induction false} SumAbsent(ops: seq<Operation>, id: AccountId)
    requires forall i :: 0 <= i < |ops| ==> ops[i].accountId != id
    ensures SumApplied(ops, id) == 0
  {
    if |ops| > 0 {
      SumAbsent(ops[..|ops| - 1], id);
    }
  }

  /** A committed transaction keeps every table invariant, the non-negative
      balance first of all. */
  lemma ProcessPreservesWellFormed(db: Db, op: Operation, now: Timestamp, faults: set<TxStep>)
    requires WellFormed(db)
    requires op.amount > 0
    ensures WellFormed(ProcessTransaction(db, op, now, faults).0)
  {
    var r := ProcessTransaction(db, op, now, faults);
    if r.1.err.None? {
      var ops' := r.0.ops;
      assert ops'[|db.ops|].txId == op.txId;
      forall i, j | 0 <= i < j < |ops'|
        ensures ops'[i].txId != ops'[j].txId
      {
        if j == |db.ops| {
          assert ops'[i] == db.ops[i];
        }
      }
    }
  }

  /** A committed transaction keeps every balance equal to the sum of its
      applied operations. */
  lemma ProcessPreservesLedger(db: Db, op: Operation, now: Timestamp, faults: set<TxStep>)
    requires WellFormed(db) && LedgerConsistent(db)
    ensures LedgerConsistent(ProcessTransaction(db, op, now, faults).0)
  {
    var r := ProcessTransaction(db, op, now, faults);
    var id := op.accountId;
    if id !in db.accounts {
      SumAbsent(db.ops, id);
    }
    if r.1.err.None? {
      forall a | a in r.0.accounts
        ensures r.0.accounts[a].balance == SumApplied(r.0.ops, a)
      {
        SumAppend(db.ops, AppliedRow(db, op, now), a);
      }
    }
  }

  /** Replaying an applied operation is answered as a duplicate with the
      balance it produced, and changes nothing. */
  lemma ProcessIdempotent(db: Db, op: Operation, now: Timestamp, faults: set<TxStep>,
                          now': Timestamp, faults': set<TxStep>)
    requires ProcessTransaction(db, op, now, faults).1.err.None?
    requires faults' !! DuplicatePath
    ensures var first := ProcessTransaction(db, op, now, faults);
            var second := ProcessTransaction(first.0, op, now', faults');
            && second.0 == first.0
            && second.1 == Reply(first.1.account, Some(ErrDuplicateTx))
  {
    var first := ProcessTransaction(db, op, now, faults);
    assert first.0.ops[|db.ops|].txId == op.txId;
  }
}

=== FILE: mapping.dfy ===
/** Translation between the wire enums and the domain enums. */
module Mapping {
  import opened Domain
  import opened Wire

  /** The wire value that names a domain source. */
  function ProtoSourceOf(s: Source): PbSource
  {
    match s
    case Game => SourceGame
    case Payment => SourcePayment
    case Service => SourceService
  }

  /** The wire value that names a domain state. */
  function ProtoStateOf(s: State): PbState
  {
    match s
    case Deposit => StateDeposit
    case Withdraw => StateWithdraw
  }

  /** Reads a wire source; the unspecified and unrecognised values are
      invalid arguments. */
  function MapProtoSource(s: PbSource): (r: Result<Source, StatusError>)
    ensures r.Ok? <==> s in {SourceGame, SourcePayment, SourceService}
    ensures r.Ok? ==> ProtoSourceOf(r.value) == s
    ensures r.Err? ==> r.error == StatusError(InvalidArgument, "invalid source value")
  {
    match s
    case SourceGame => Ok(Game)
    case SourcePayment => Ok(Payment)
    case SourceService => Ok(Service)
    case _ => Err(StatusError(InvalidArgument, "invalid source value"))
  }

  /** Reads a wire state; the unspecified and unrecognised values are
      invalid arguments. */
  function MapProtoState(s: PbState): (r: Result<State, StatusError>)
    ensures r.Ok? <==> s in {StateDeposit, StateWithdraw}
    ensures r.Ok? ==> ProtoStateOf(r.value) == s
    ensures r.Err? ==> r.error == StatusError(InvalidArgument, "invalid state value")
  {
    match s
    case StateDeposit => Ok(Deposit)
    case StateWithdraw => Ok(Withdraw)
    case _ => Err(StatusError(InvalidArgument, "invalid state value"))
  }

  /** Every domain source and state survives the trip over the wire, and the
      wire names agree with the stored column names. */
  lemma ProtoEnumsRoundTrip(s: Source, t: State)
    ensures MapProtoSource(ProtoSourceOf(s)) == Ok(s)
    ensures MapProtoState(ProtoStateOf(t)) == Ok(t)
    ensures MapProtoSource(SourceGame) == Ok(Game) && SourceName(Game) == "game"
    ensures MapProtoSource(SourcePayment) == Ok(Payment) && SourceName(Payment) == "payment"
    ensures MapProtoSource(SourceService) == Ok(Service) && SourceName(Service) == "service"
    ensures MapProtoState(StateDeposit) == Ok(Deposit) && StateName(Deposit) == "deposit"
    ensures MapProtoState(StateWithdraw) == Ok(Withdraw) && StateName(Withdraw) == "withdraw"
  {
  }

  /** A domain status travels as its integer code; codes 0, 1 and 2 are the
      three statuses and anything else falls back to OK. */
  function MapDomainStatus(code: int): (r: PbStatus)
    ensures code == StatusCode(StatusAlreadyProcessed) <==> r == PbStatusAlreadyProcessed
    ensures code == StatusCode(StatusRejectedNegative) <==> r == PbStatusRejectedNegative
  {
    if code == StatusCode(StatusOK) then PbStatusOK
    else if code == StatusCode(StatusAlreadyProcessed) then PbStatusAlreadyProcessed
    else if code == StatusCode(StatusRejectedNegative) then PbStatusRejectedNegative
    else PbStatusOK
  }

  /** How a client reads a wire status. */
  function StatusFromWire(p: PbStatus): ProcessStatus
  {
    match p
    case PbStatusOK => StatusOK
    case PbStatusAlreadyProcessed => StatusAlreadyProcessed
    case PbStatusRejectedNegative => StatusRejectedNegative
  }

  /** The three statuses reach the client intact, and so distinct; an
      out-of-range code reads as OK. */
  lemma StatusRoundTrip(s: ProcessStatus, code: int)
    ensures StatusFromWire(MapDomainStatus(StatusCode(s))) == s
    ensures !(0 <= code <= 2) ==> StatusFromWire(MapDomainStatus(code)) == StatusOK
  {
  }
}

=== FILE: scenarios.dfy ===
/** A worked sequence of requests and a scheduler cancellation on one fresh
    account, from an empty ledger, with no storage failures. Amounts are in
    cents. */
module Scenarios {
  import opened Domain
  import opened Tables
  import opened Ledger
  import opened Usecase
  import opened Compensation

  /** The operation row that the first request stores. */
  function FirstDeposit(id: AccountId): Operation
  {
    Operation(1, "t1", id, Game, Deposit, 5000, 1, true, None, None)
  }

  /** The tables after the first deposit. */
  function AfterDeposit(id: AccountId): Db
  {
    Db(map[id := AccountRow(5000, 1)], [FirstDeposit(id)])
  }

  lemma DepositStep(id: AccountId)
    ensures Process(Db(map[], []), ProcessRequest(id, Game, Deposit, 5000, "t1"), 1, {}, false)
         == (AfterDeposit(id), Ok(ProcessResponse("t1", StatusOK, 5000, 1)))
  {
    var db0 := Db(map[], []);
    var s1 := Process(db0, ProcessRequest(id, Game, Deposit, 5000, "t1"), 1, {}, false);
    assert s1.0.ops == [AppliedRow(db0, RequestOperation(ProcessRequest(id, Game, Deposit, 5000, "t1")), 1)];
  }

  lemma ReplayStep(id: AccountId)
    ensures Process(AfterDeposit(id), ProcessRequest(id, Game, Deposit, 5000, "t1"), 2, {}, false)
         == (AfterDeposit(id), Ok(ProcessResponse("t1", StatusAlreadyProcessed, 5000, 1)))
  {
    assert IndexOfTx(AfterDeposit(id).ops, "t1") == Some(0);
  }

  lemma RejectStep(id: AccountId)
    ensures Process(AfterDeposit(id), ProcessRequest(id, Game, Withdraw, 8000, "t2"), 3, {}, false)
         == (AfterDeposit(id), Ok(ProcessResponse("t2", StatusRejectedNegative, 5000, 1)))
  {
    assert "t2" != "t1";
    assert IndexOfTx(AfterDeposit(id).ops, "t2") == None;
  }

  lemma WithdrawStep(id: AccountId)
    ensures var s4 := Process(AfterDeposit(id), ProcessRequest(id, Game, Withdraw, 3000, "t3"), 4, {}, false);
            && s4.1 == Ok(ProcessResponse("t3", StatusOK, 2000, 4))
            && s4.0.accounts == map[id := AccountRow(2000, 4)]
            && |s4.0.ops| == 2 && s4.0.ops[0] == FirstDeposit(id) && s4.0.ops[1].id == 2
  {
    assert "t3" != "t1";
    assert IndexOfTx(AfterDeposit(id).ops, "t3") == None;
  }

  /** Deposit 50.00 ("t1"), repeat it, withdraw 80.00 ("t2"), withdraw 30.00
      ("t3"). The repeat is a replay and the 80.00 withdrawal is refused and
      leaves no row behind; the tables end with a balance of 20.00 and the
      rows of "t1" and "t3". */
  lemma DepositReplayRejectWithdraw(id: AccountId)
    ensures var db0 := Db(map[], []);
            var s1 := Process(db0, ProcessRequest(id, Game, Deposit, 5000, "t1"), 1, {}, false);
            var s2 := Process(s1.0, ProcessRequest(id, Game, Deposit, 5000, "t1"), 2, {}, false);
            var s3 := Process(s2.0, ProcessRequest(id, Game, Withdraw, 8000, "t2"), 3, {}, false);
            var s4 := Process(s3.0, ProcessRequest(id, Game, Withdraw, 3000, "t3"), 4, {}, false);
            && s1.1 == Ok(ProcessResponse("t1", StatusOK, 5000, 1))
            && s2.1.Ok? && s2.1.value.status == StatusAlreadyProcessed && s2.1.value.balance == 5000
            && s3.1.Ok? && s3.1.value.status == StatusRejectedNegative && s3.1.value.balance == 5000
            && s3.0 == s2.0 && IndexOfTx(s3.0.ops, "t2").None?
            && s4.1 == Ok(ProcessResponse("t3", StatusOK, 2000, 4))
            && s4.0.accounts == map[id := AccountRow(2000, 4)]
            && |s4.0.ops| == 2 && s4.0.ops[0] == FirstDeposit(id) && s4.0.ops[1].id == 2
  {
    DepositStep(id);
    ReplayStep(id);
    RejectStep(id);
    WithdrawStep(id);
    assert IndexOfTx(AfterDeposit(id).ops, "t2") == None by {
      assert "t2" != "t1";
    }
  }

  /** The tables after a 5.00 deposit "t1" and a 1.00 deposit "cancel::t1". */
  function KeyTakenDb(id: AccountId): Db
  {
    Db(map[id := AccountRow(600, 2)],
       [Operation(1, "t1", id, Game, Deposit, 500, 1, true, None, None),
        Operation(2, "cancel::t1", id, Game, Deposit, 100, 2, true, None, None)])
  }

  lemma KeyTakenStep(id: AccountId)
    ensures var a := ProcessTransaction(Db(map[], []), Operation(0, "t1", id, Game, Deposit, 500, 0, false, None, None), 1, {}).0;
            ProcessTransaction(a, Operation(0, "cancel::t1", id, Game, Deposit, 100, 0, false, None, None), 2, {}).0
            == KeyTakenDb(id)
  {
    var a := ProcessTransaction(Db(map[], []), Operation(0, "t1", id, Game, Deposit, 500, 0, false, None, None), 1, {}).0;
    assert a.ops == [Operation(1, "t1", id, Game, Deposit, 500, 1, true, None, None)];
    assert "cancel::t1" != "t1";
  }

  lemma CancelOnTakenKey(id: AccountId)
    ensures var c := CancelOne(KeyTakenDb(id), 1, 3, {});
            && c.1 == Success
            && |c.0.ops| == 2
            && c.0.accounts[id].balance == 100
            && SumApplied(c.0.ops, id) == 600
  {
    var b := KeyTakenDb(id);
    assert IndexOfId(b.ops, 1) == Some(0);
    assert CompensatingTxId("t1") == "cancel::t1";
    assert IndexOfTx(b.ops, "cancel::t1") == Some(1);
    var c := CancelOne(b, 1, 3, {});
    assert c.0.ops == [b.ops[0].(canceledAt := Some(3), cancelNote := Some(CancelNote)), b.ops[1]];
    assert c.0.ops[..1] == [c.0.ops[0]];
    assert [c.0.ops[0]][..0] == [];
    assert SumApplied([c.0.ops[0]], id) == 500;
    assert SumApplied(c.0.ops, id) == SumApplied([c.0.ops[0]], id) + 100;
  }

  /** A client that deposits under the tx id "cancel::t1" takes the key the
      compensation of "t1" would use. Cancelling "t1" then still withdraws
      5.00 while writing no compensating row, so the balance (1.00) no
      longer equals the sum of the applied rows (6.00). */
  lemma ClientKeyTakesCompensationSlot(id: AccountId)
    ensures var a := ProcessTransaction(Db(map[], []), Operation(0, "t1", id, Game, Deposit, 500, 0, false, None, None), 1, {}).0;
            var b := ProcessTransaction(a, Operation(0, "cancel::t1", id, Game, Deposit, 100, 0, false, None, None), 2, {}).0;
            var c := CancelOne(b, 1, 3, {});
            && c.1 == Success
            && |c.0.ops| == 2
            && c.0.accounts[id].balance == 100
            && SumApplied(c.0.ops, id) == 600
  {
    KeyTakenStep(id);
    CancelOnTakenKey(id);
  }

  /** Cancelling "t1" (a 50.00 deposit) against a balance of 20.00 fails the
      guard: the cancellation is skipped, only the note changes, and "t1"
      stays eligible for a later cycle. */
  lemma CancelSkippedForLackOfFunds(db: Db, id: AccountId)
    requires db.accounts == map[id := AccountRow(2000, 4)]
    requires |db.ops| == 2 && db.ops[0] == FirstDeposit(id) && db.ops[1].id == 2
    ensures var c := CancelOne(db, 1, 5, {});
            && c.1 == Skipped
            && c.0.accounts == db.accounts
            && c.0.ops[0] == FirstDeposit(id).(cancelNote := Some(SkipNote))
            && Selection.Eligible(c.0.ops[0])
  {
    assert IndexOfId(db.ops, 1) == Some(0);
  }
}

=== FILE: scheduler.dfy ===
/** The cancellation scheduler: one cycle tries the advisory lock, selects
    the candidates, compensates each of them in selection order and tallies
    the results; the run loop performs one cycle at start and one per tick
    until it is stopped.

    The advisory lock is an oracle: each cycle is told whether the attempt
    succeeded. The cycle records what it does as a trace of events, so that
    the lock discipline can be stated about the trace. */
module Scheduler {
  import opened Domain
  import opened Tables
  import opened Selection
  import opened Compensation

  /** What a cycle does, in order. */
  datatype Event = LockAttempt | SelectCandidates | Cancel(opId: int) | Unlock

  /** What the environment decides for one cycle: the lock outcome, whether
      the selection query fails, the clock, and the failing statements of
      each candidate's transaction (in selection order; missing entries mean
      no failure). */
  datatype CycleEnv = CycleEnv(lockAcquired: bool, selectFault: bool, now: Timestamp,
                               faults: seq<set<CancelStep>>)

  datatype CycleReport = CycleReport(trace: seq<Event>, results: seq<CancelResult>,
                                     cancelled: nat, skipped: nat, failed: nat)

  function Head(faults: seq<set<CancelStep>>): set<CancelStep>
  {
    if |faults| == 0 then {} else faults[0]
  }

  function Tail(faults: seq<set<CancelStep>>): seq<set<CancelStep>>
  {
    if |faults| == 0 then [] else faults[1..]
  }

  /** Number of occurrences of `x` in `s`. */
  function Count<T(==)>(s: seq<T>, x: T): nat
  {
    if |s| == 0 then 0
    else Count(s[..|s| - 1], x) + (if s[|s| - 1] == x then 1 else 0)
  }

  lemma CountAppend<T>(s: seq<T>, y: T, x: T)
    ensures Count(s + [y], x) == Count(s, x) + (if y == x then 1 else 0)
  {
    assert (s + [y])[..|s|] == s;
  }

  /** Every result is exactly one of the three outcomes. */
  lemma {:induction false} CountsPartition(s: seq<CancelResult>)
    ensures Count(s, Success) + Count(s, Skipped) + Count(s, Failed) == |s|
  {
    if |s| > 0 {
      CountsPartition(s[..|s| - 1]);
      match s[|s| - 1]
      case Success =>
      case Skipped =>
      case Failed =>
    }
  }

  /** One compensation: the tables, an operation id, the clock and the
      failing statements give the new tables and the outcome. */
  type Compensate = (Db, int, Timestamp, set<CancelStep>) -> (Db, CancelResult)

  /** The operation ids of the candidates, in selection order. */
  function Ids(cands: seq<Candidate>): (r: seq<int>)
    ensures |r| == |cands|
    ensures forall k :: 0 <= k < |r| ==> r[k] == cands[k].id
  {
    seq(|cands|, k requires 0 <= k < |cands| => cands[k].id)
  }

  /** Applies `step` to every candidate in order, threading the tables
      through; a failure does not stop the rest. The third component records
      the id each call of `step` was given, in call order: every candidate
      is handed over exactly once, in selection order. */
  function Sweep(step: Compensate, db: Db, cands: seq<Candidate>, now: Timestamp, faults: seq<set<CancelStep>>)
    : (r: (Db, seq<CancelResult>, seq<int>))
    ensures |r.1| == |cands|
    ensures r.2 == Ids(cands)
    decreases |cands|
  {
    if |cands| == 0 then (db, [], [])
    else
      var first := step(db, cands[0].id, now, Head(faults));
      var rest := Sweep(step, first.0, cands[1..], now, Tail(faults));
      assert [cands[0].id] + rest.2 == Ids(cands);
      (rest.0, [first.1] + rest.1, [cands[0].id] + rest.2)
  }

  /** One `Cancel` event per id, in order. */
  function CancelEvents(ids: seq<int>): (r: seq<Event>)
    ensures |r| == |ids|
    ensures forall k :: 0 <= k < |r| ==> r[k] == Cancel(ids[k])
  {
    if |ids| == 0 then [] else [Cancel(ids[0])] + CancelEvents(ids[1..])
  }

  /** The events of a cycle that holds the lock and cancels `visited`. */
  function LockedTrace(visited: seq<int>): seq<Event>
  {
    [LockAttempt, SelectCandidates] + CancelEvents(visited) + [Unlock]
  }

  /** One cycle, as a function of the tables and the environment. Its trace
      records the ids the sweep actually handed to the compensation. */
  function Cycle(db: Db, env: CycleEnv): (r: (Db, CycleReport))
    ensures !env.lockAcquired ==> r.1.trace == [LockAttempt]
    ensures env.lockAcquired && env.selectFault ==> r.1.trace == [LockAttempt, SelectCandidates, Unlock]
    ensures env.lockAcquired && !env.selectFault ==>
              r.1.trace == LockedTrace(Ids(SelectOddLatest(db.ops, false).value))
  {
    if !env.lockAcquired then (db, CycleReport([LockAttempt], [], 0, 0, 0))
    else
      match SelectOddLatest(db.ops, env.selectFault)
      case Err(_) => (db, CycleReport([LockAttempt, SelectCandidates, Unlock], [], 0, 0, 0))
      case Ok(cands) =>
        var done := Sweep(CancelOne, db, cands, env.now, env.faults);
        (done.0, CycleReport(LockedTrace(done.2), done.1,
                             Count(done.1, Success), Count(done.1, Skipped), Count(done.1, Failed)))
  }

  /** The lock is attempted first; once it is held, the last event is its
      release and it is released exactly once. */
  lemma LockDiscipline(db: Db, env: CycleEnv)
    ensures var trace := Cycle(db, env).1.trace;
            && |trace| > 0 && trace[0] == LockAttempt
            && (!env.lockAcquired ==> trace == [LockAttempt])
            && (env.lockAcquired ==> trace[|trace| - 1] == Unlock && Count(trace, Unlock) == 1)
  {
    if env.lockAcquired {
      var prefix := if env.selectFault then [LockAttempt, SelectCandidates]
                    else [LockAttempt, SelectCandidates] + CancelEvents(Ids(SelectOddLatest(db.ops, false).value));
      assert Cycle(db, env).1.trace == prefix + [Unlock];
      NoUnlockBeforeEnd(prefix);
      CountAppend(prefix, Unlock, Unlock);
    }
  }

  /** Without the lock a cycle does nothing else and changes nothing. */
  lemma CycleWithoutLock(db: Db, env: CycleEnv)
    requires !env.lockAcquired
    ensures Cycle(db, env) == (db, CycleReport([LockAttempt], [], 0, 0, 0))
  {
  }

  /** The cycle as the loop runs it: one call per candidate, three counters. */
  method RunOnce(db: Db, env: CycleEnv) returns (db': Db, report: CycleReport)
    ensures (db', report) == Cycle(db, env)
    ensures report.cancelled + report.skipped + report.failed == |report.results|
    ensures !env.lockAcquired ==> db' == db && report.trace == [LockAttempt]
    ensures env.lockAcquired ==>
              && report.trace[0] == LockAttempt
              && report.trace[|report.trace| - 1] == Unlock
              && Count(report.trace, Unlock) == 1
    ensures env.lockAcquired && !env.selectFault ==>
              |report.results| == |SelectOddLatest(db.ops, false).value|
  {
    LockDiscipline(db, env);
    if !env.lockAcquired {
      return db, CycleReport([LockAttempt], [], 0, 0, 0);
    }
    var selected := SelectOddLatest(db.ops, env.selectFault);
    if selected.Err? {
      return db, CycleReport([LockAttempt, SelectCandidates, Unlock], [], 0, 0, 0);
    }
    var cands := selected.value;
    var current, results, visited, cancelled, skipped, failed := CancelLoop(CancelOne, db, cands, env.now, env.faults);
    CountsPartition(results);
    return current, CycleReport(LockedTrace(visited), results, cancelled, skipped, failed);
  }

  /** The loop over the candidates, with a counter per outcome. */
  method CancelLoop(step: Compensate, db: Db, cands: seq<Candidate>, now: Timestamp,
                    faults: seq<set<CancelStep>>)
    returns (db': Db, results: seq<CancelResult>, visited: seq<int>, cancelled: nat, skipped: nat, failed: nat)
    ensures (db', results, visited) == Sweep(step, db, cands, now, faults)
    ensures cancelled == Count(results, Success)
    ensures skipped == Count(results, Skipped)
    ensures failed == Count(results, Failed)
  {
    ghost var full := Sweep(step, db, cands, now, faults);
    db' := db;
    var pending := faults;
    results := [];
    visited := [];
    cancelled, skipped, failed := 0, 0, 0;
    var i := 0;
    assert cands[0..] == cands && [] + full.1 == full.1 && [] + full.2 == full.2;
    while i < |cands|
      invariant 0 <= i <= |cands|
      invariant Resume(results, visited, Sweep(step, db', cands[i..], now, pending)) == full
      invariant cancelled == Count(results, Success)
      invariant skipped == Count(results, Skipped)
      invariant failed == Count(results, Failed)
    {
      var outcome := step(db', cands[i].id, now, Head(pending));
      SweepAdvance(step, db', cands, i, now, pending, results, visited);
      cancelled, skipped, failed := Tally(results, outcome.1, cancelled, skipped, failed);
      results := results + [outcome.1];
      visited := visited + [cands[i].id];
      db' := outcome.0;
      pending := Tail(pending);
      i := i + 1;
    }
    assert cands[i..] == [];
    assert results + [] == results && visited + [] == visited;
  }

  /** A sweep's result once `done` and `visited` are already behind it. */
  function Resume(done: seq<CancelResult>, visited: seq<int>, rest: (Db, seq<CancelResult>, seq<int>))
    : (Db, seq<CancelResult>, seq<int>)
  {
    (rest.0, done + rest.1, visited + rest.2)
  }

  /** Handling candidate `i` leaves the rest of the sweep to do. */
  lemma SweepAdvance(step: Compensate, db: Db, cands: seq<Candidate>, i: nat, now: Timestamp,
                     pending: seq<set<CancelStep>>, done: seq<CancelResult>, visited: seq<int>)
    requires i < |cands|
    ensures var outcome := step(db, cands[i].id, now, Head(pending));
            Resume(done, visited, Sweep(step, db, cands[i..], now, pending))
            == Resume(done + [outcome.1], visited + [cands[i].id],
                      Sweep(step, outcome.0, cands[i + 1..], now, Tail(pending)))
  {
    assert cands[i..][0] == cands[i] && cands[i..][1..] == cands[i + 1..];
    var outcome := step(db, cands[i].id, now, Head(pending));
    var rest := Sweep(step, outcome.0, cands[i + 1..], now, Tail(pending));
    assert done + ([outcome.1] + rest.1) == (done + [outcome.1]) + rest.1;
    assert visited + ([cands[i].id] + rest.2) == (visited + [cands[i].id]) + rest.2;
  }

  /** Bumps the counter of one outcome. */
  method Tally(results: seq<CancelResult>, outcome: CancelResult, cancelled: nat, skipped: nat, failed: nat)
    returns (cancelled': nat, skipped': nat, failed': nat)
    requires cancelled == Count(results, Success)
    requires skipped == Count(results, Skipped)
    requires failed == Count(results, Failed)
    ensures cancelled' == Count(results + [outcome], Success)
    ensures skipped' == Count(results + [outcome], Skipped)
    ensures failed' == Count(results + [outcome], Failed)
  {
    CountAppend(results, outcome, Success);
    CountAppend(results, outcome, Skipped);
    CountAppend(results, outcome, Failed);
    cancelled', skipped', failed' := cancelled, skipped, failed;
    match outcome
    case Success => cancelled' := cancelled + 1;
    case Skipped => skipped' := skipped + 1;
    case Failed => failed' := failed + 1;
  }

  lemma {:induction false} NoUnlockBeforeEnd(s: seq<Event>)
    requires forall k :: 0 <= k < |s| ==> s[k] != Unlock
    ensures Count(s, Unlock) == 0
  {
    if |s| > 0 {
      NoUnlockBeforeEnd(s[..|s| - 1]);
    }
  }

  /** Each candidate is handed to the compensation procedure exactly once,
      in selection order, between the selection and the unlock. */
  lemma VisitsEachCandidateOnce(db: Db, env: CycleEnv)
    requires env.lockAcquired && !env.selectFault
    ensures var cands := SelectOddLatest(db.ops, false).value;
            var trace := Cycle(db, env).1.trace;
            && |trace| == |cands| + 3
            && trace[..2] == [LockAttempt, SelectCandidates]
            && (forall k :: 0 <= k < |cands| ==> trace[k + 2] == Cancel(cands[k].id))
            && trace[|trace| - 1] == Unlock
  {
    var cands := SelectOddLatest(db.ops, false).value;
    LockedTraceShape(Ids(cands));
  }

  /** A locked trace: the two opening events, one cancel per id in order,
      then the unlock. */
  lemma LockedTraceShape(ids: seq<int>)
    ensures var trace := LockedTrace(ids);
            && |trace| == |ids| + 3
            && trace[..2] == [LockAttempt, SelectCandidates]
            && (forall k :: 0 <= k < |ids| ==> trace[k + 2] == Cancel(ids[k]))
            && trace[|trace| - 1] == Unlock
  {
    var events := CancelEvents(ids);
    var trace := LockedTrace(ids);
    assert trace[..2] == [LockAttempt, SelectCandidates];
    forall k | 0 <= k < |ids|
      ensures trace[k + 2] == Cancel(ids[k])
    {
      assert trace[k + 2] == events[k];
    }
  }

  /** A failed selection ends the cycle without any cancellation, and the
      lock is still released. */
  lemma CycleSelectionFailure(db: Db, env: CycleEnv)
    requires env.lockAcquired && env.selectFault
    ensures Cycle(db, env) == (db, CycleReport([LockAttempt, SelectCandidates, Unlock], [], 0, 0, 0))
  {
  }

  lemma {:induction false} SweepPreservesWellFormed(db: Db, cands: seq<Candidate>, now: Timestamp,
                                                    faults: seq<set<CancelStep>>)
    requires WellFormed(db)
    ensures WellFormed(Sweep(CancelOne, db, cands, now, faults).0)
    decreases |cands|
  {
    if |cands| > 0 {
      CancelOnePreservesWellFormed(db, cands[0].id, now, Head(faults));
      SweepPreservesWellFormed(CancelOne(db, cands[0].id, now, Head(faults)).0, cands[1..], now, Tail(faults));
    }
  }

  /** A cycle keeps every table invariant. */
  lemma CyclePreservesWellFormed(db: Db, env: CycleEnv)
    requires WellFormed(db)
    ensures WellFormed(Cycle(db, env).0)
  {
    if env.lockAcquired && !env.selectFault {
      SweepPreservesWellFormed(db, SelectOddLatest(db.ops, false).value, env.now, env.faults);
    }
  }

  /** What the run loop observes: a tick, or the end of its context. */
  datatype Signal = Tick(env: CycleEnv) | Stop

  /** One cycle of the loop: the tables and the environment give the new
      tables and the report. The scheduler's is `Cycle`. */
  type CycleStep = (Db, CycleEnv) -> (Db, CycleReport)

  /** The number of ticks that arrive before the loop is stopped. */
  function TicksBeforeStop(signals: seq<Signal>): nat
  {
    if |signals| == 0 || signals[0].Stop? then 0 else 1 + TicksBeforeStop(signals[1..])
  }

  /** Every signal of `s` is a tick. */
  predicate AllTicks(s: seq<Signal>)
  {
    forall k :: 0 <= k < |s| ==> s[k].Tick?
  }

  /** One cycle per tick until the first stop signal. */
  function Ticks(cycle: CycleStep, db: Db, signals: seq<Signal>): (r: (Db, seq<CycleReport>))
    ensures |r.1| == TicksBeforeStop(signals) <= |signals|
    ensures forall k :: 0 <= k < |r.1| ==> signals[k].Tick?
    decreases |signals|
  {
    if |signals| == 0 then (db, [])
    else
      match signals[0]
      case Stop => (db, [])
      case Tick(env) =>
        var c := cycle(db, env);
        var more := Ticks(cycle, c.0, signals[1..]);
        assert forall k :: 1 <= k < 1 + |more.1| ==> signals[k] == signals[1..][k - 1];
        (more.0, [c.1] + more.1)
  }

  /** Ticks compose: running `s` and then `t` is running `s + t`, the
      reports of `t` following those of `s`, as long as `s` has no stop. */
  lemma {:induction false} TicksAppend(cycle: CycleStep, db: Db, s: seq<Signal>, t: seq<Signal>)
    requires AllTicks(s)
    ensures var a := Ticks(cycle, db, s);
            var b := Ticks(cycle, a.0, t);
            Ticks(cycle, db, s + t) == (b.0, a.1 + b.1)
    decreases |s|
  {
    if |s| == 0 {
      assert s + t == t;
      assert [] + Ticks(cycle, db, t).1 == Ticks(cycle, db, t).1;
    } else {
      var c := cycle(db, s[0].env);
      assert s[0].Tick?;
      assert AllTicks(s[1..]) by {
        assert forall k :: 0 <= k < |s[1..]| ==> s[1..][k] == s[k + 1];
      }
      ConsAppend(s, t);
      TicksAppend(cycle, c.0, s[1..], t);
      var a := Ticks(cycle, c.0, s[1..]);
      var b := Ticks(cycle, a.0, t);
      assert Ticks(cycle, db, s) == (a.0, [c.1] + a.1);
      assert Ticks(cycle, db, s + t) == (b.0, [c.1] + (a.1 + b.1));
      assert [c.1] + (a.1 + b.1) == ([c.1] + a.1) + b.1;
    }
  }

  /** Appending keeps the head and appends to the tail. */
  lemma ConsAppend(s: seq<Signal>, t: seq<Signal>)
    requires |s| > 0
    ensures (s + t)[0] == s[0] && (s + t)[1..] == s[1..] + t
  {
    assert (s + t)[1..] == s[1..] + t;
  }

  /** A single tick is exactly one cycle on the current tables. With
      `TicksAppend` this pins every tick of a longer sequence. */
  lemma TicksOne(db: Db, env: CycleEnv)
    ensures Ticks(Cycle, db, [Tick(env)]) == (Cycle(db, env).0, [Cycle(db, env).1])
  {
    var c := Cycle(db, env);
    assert [Tick(env)][1..] == [];
    assert [c.1] + [] == [c.1];
  }

  /** A stop ends the loop: nothing after it runs. */
  lemma TicksStopTruncates(cycle: CycleStep, db: Db, s: seq<Signal>, t: seq<Signal>)
    requires AllTicks(s)
    ensures Ticks(cycle, db, s + [Stop] + t) == Ticks(cycle, db, s)
  {
    TicksAppend(cycle, db, s, [Stop] + t);
    assert s + [Stop] + t == s + ([Stop] + t);
    assert Ticks(cycle, db, s).1 + [] == Ticks(cycle, db, s).1;
  }

  /** The scheduler's run: one cycle immediately, then one per tick. */
  function Run(db: Db, first: CycleEnv, signals: seq<Signal>): (r: (Db, seq<CycleReport>))
    ensures |r.1| == 1 + TicksBeforeStop(signals)
    ensures r.1[0] == Cycle(db, first).1
    // the first tick runs a cycle on the tables the first cycle left
    ensures |signals| > 0 && signals[0].Tick? ==> r.1[1] == Cycle(Cycle(db, first).0, signals[0].env).1
  {
    var c := Cycle(db, first);
    var more := Ticks(Cycle, c.0, signals);
    (more.0, [c.1] + more.1)
  }

  /** Stopped before the first tick, the run has done exactly its first
      cycle. */
  lemma RunStoppedAtOnce(db: Db, first: CycleEnv, t: seq<Signal>)
    ensures Run(db, first, [Stop] + t) == (Cycle(db, first).0, [Cycle(db, first).1])
  {
    var c := Cycle(db, first);
    assert ([Stop] + t)[0] == Stop;
    assert Ticks(Cycle, c.0, [Stop] + t) == (c.0, []);
    assert [c.1] + [] == [c.1];
  }

  /** After the first cycle the run is the tick loop: ticks that follow a
      run without a stop continue from the tables it left. */
  lemma RunThenTicks(db: Db, first: CycleEnv, s: seq<Signal>, t: seq<Signal>)
    requires AllTicks(s)
    ensures var a := Run(db, first, s);
            var b := Ticks(Cycle, a.0, t);
            Run(db, first, s + t) == (b.0, a.1 + b.1)
  {
    var c := Cycle(db, first);
    TicksAppend(Cycle, c.0, s, t);
    var a := Ticks(Cycle, c.0, s);
    var b := Ticks(Cycle, a.0, t);
    assert [c.1] + (a.1 + b.1) == ([c.1] + a.1) + b.1;
  }

  lemma {:induction false} TicksPreserveWellFormed(db: Db, signals: seq<Signal>)
    requires WellFormed(db)
    ensures WellFormed(Ticks(Cycle, db, signals).0)
    decreases |signals|
  {
    if |signals| > 0 && signals[0].Tick? {
      CyclePreservesWellFormed(db, signals[0].env);
      TicksPreserveWellFormed(Cycle(db, signals[0].env).0, signals[1..]);
    }
  }

  /** However many cycles run, every balance stays non-negative and every
      other table invariant holds. */
  lemma RunPreservesWellFormed(db: Db, first: CycleEnv, signals: seq<Signal>)
    requires WellFormed(db)
    ensures WellFormed(Run(db, first, signals).0)
  {
    CyclePreservesWellFormed(db, first);
    TicksPreserveWellFormed(Cycle(db, first).0, signals);
  }
}

=== FILE: selection.dfy ===
/** Candidate selection for the cancellation scheduler: among the applied,
    uncanceled operations, rank by recency (`created_at` descending, then
    `id` descending), keep the odd ranks 1, 3, 5, ... in rank order, and
    return at most ten of them. The window query is modelled as a filter, a
    sort, a stride and a prefix. */
module Selection {
  import opened Domain
  import opened Tables

  /** The `LIMIT` of the query. */
  const Limit: nat := 10

  /** One `(id, tx_id)` result row. */
  datatype Candidate = Candidate(id: int, txId: string)

  /** `applied = TRUE AND canceled_at IS NULL`. */
  predicate Eligible(op: Operation)
  {
    op.applied && op.canceledAt.None?
  }

  /** Within `s`, an id names a single row. */
  ghost predicate IdsIdentifyRows(s: seq<Operation>)
  {
    forall x, y :: x in s && y in s && x.id == y.id ==> x == y
  }

  /** The eligible rows, in table order. */
  function EligibleOps(ops: seq<Operation>): (r: seq<Operation>)
    ensures forall x :: x in r <==> x in ops && Eligible(x)
    ensures multiset(r) <= multiset(ops)
  {
    if |ops| == 0 then []
    else
      assert ops == [ops[0]] + ops[1..];
      if Eligible(ops[0]) then [ops[0]] + EligibleOps(ops[1..])
      else EligibleOps(ops[1..])
  }

  /** `a` takes a rank no later than `b` under
      `ORDER BY created_at DESC, id DESC`. */
  predicate RanksBefore(a: Operation, b: Operation)
  {
    a.createdAt > b.createdAt || (a.createdAt == b.createdAt && a.id >= b.id)
  }

  /** Position `i` holds rank `i + 1`. */
  ghost predicate Ranked(s: seq<Operation>)
  {
    forall i, j :: 0 <= i < j < |s| ==> RanksBefore(s[i], s[j])
  }

  /** Every row of `s` ranks after `a`. */
  ghost predicate AllAfter(a: Operation, s: seq<Operation>)
  {
    forall y :: y in s ==> RanksBefore(a, y)
  }

  /** Inserts `x` into a ranked sequence at its rank. */
  function Insert(x: Operation, s: seq<Operation>): (r: seq<Operation>)
    ensures |r| == |s| + 1
    ensures multiset(r) == multiset(s) + multiset{x}
  {
    if |s| == 0 then [x]
    else if RanksBefore(x, s[0]) then [x] + s
    else
      assert s == [s[0]] + s[1..];
      [s[0]] + Insert(x, s[1..])
  }

  lemma {:induction false} InsertRanked(x: Operation, s: seq<Operation>)
    requires Ranked(s)
    ensures Ranked(Insert(x, s))
  {
    if |s| > 0 && !RanksBefore(x, s[0]) {
      var rest := Insert(x, s[1..]);
      InsertRanked(x, s[1..]);
      assert AllAfter(s[0], rest) by {
        forall y | y in rest
          ensures RanksBefore(s[0], y)
        {
          assert y in multiset(rest);
          if y != x {
            assert y in multiset(s[1..]);
            var m :| 0 <= m < |s[1..]| && s[1..][m] == y;
            assert s[m + 1] == y;
          }
        }
      }
      var r := [s[0]] + rest;
      forall i, j | 0 <= i < j < |r|
        ensures RanksBefore(r[i], r[j])
      {
        if i == 0 {
          assert r[j] == rest[j - 1];
          assert r[j] in rest;
        } else {
          assert r[i] == rest[i - 1] && r[j] == rest[j - 1];
        }
      }
    }
  }

  /** `ROW_NUMBER() OVER (ORDER BY created_at DESC, id DESC)`: the rows in
      rank order. */
  function Rank(s: seq<Operation>): (r: seq<Operation>)
    ensures |r| == |s|
    ensures multiset(r) == multiset(s)
  {
    if |s| == 0 then []
    else
      assert s == [s[0]] + s[1..];
      Insert(s[0], Rank(s[1..]))
  }

  lemma {:induction false} RankRanked(s: seq<Operation>)
    ensures Ranked(Rank(s))
  {
    if |s| > 0 {
      RankRanked(s[1..]);
      InsertRanked(s[0], Rank(s[1..]));
    }
  }

  /** Two recency orderings of the same rows start with the same row. */
  lemma HeadsAgree(a: seq<Operation>, b: seq<Operation>)
    requires multiset(a) == multiset(b)
    requires Ranked(a) && Ranked(b)
    requires IdsIdentifyRows(a)
    requires |a| > 0
    ensures |b| > 0 && a[0] == b[0]
  {
    assert |a| == |multiset(a)| == |multiset(b)| == |b|;
    assert b[0] in multiset(a) && a[0] in multiset(b);
    var m :| 0 <= m < |a| && a[m] == b[0];
    var k :| 0 <= k < |b| && b[k] == a[0];
    if m != 0 {
      assert RanksBefore(a[0], a[m]);
    }
    if k != 0 {
      assert RanksBefore(b[0], b[k]);
    }
    assert a[0].id == a[m].id && a[m] in a;
  }

  /** When ids name rows, the ranking is unique: every ordering of the same
      rows that respects recency is the one `Rank` produces. */
  lemma {:induction false} RankingIsUnique(a: seq<Operation>, b: seq<Operation>)
    requires multiset(a) == multiset(b)
    requires Ranked(a) && Ranked(b)
    requires IdsIdentifyRows(a)
    ensures a == b
  {
    if |a| == 0 {
      assert |b| == |multiset(b)| == 0;
    } else {
      HeadsAgree(a, b);
      TailsAgree(a, b);
      RankingIsUnique(a[1..], b[1..]);
      assert a == [a[0]] + a[1..];
      assert b == [b[0]] + b[1..];
    }
  }

  /** With equal heads, what `RankingIsUnique` assumes of two rankings holds
      of their tails. */
  lemma TailsAgree(a: seq<Operation>, b: seq<Operation>)
    requires multiset(a) == multiset(b)
    requires Ranked(a) && Ranked(b)
    requires IdsIdentifyRows(a)
    requires |a| > 0 && |b| > 0 && a[0] == b[0]
    ensures multiset(a[1..]) == multiset(b[1..])
    ensures Ranked(a[1..]) && Ranked(b[1..])
    ensures IdsIdentifyRows(a[1..])
  {
    MultisetCons(a);
    MultisetCons(b);
    assert multiset(a[1..]) == multiset(a) - multiset{a[0]};
    assert multiset(b[1..]) == multiset(b) - multiset{b[0]};
    RankedTail(a);
    RankedTail(b);
    forall x, y | x in a[1..] && y in a[1..] && x.id == y.id ensures x == y {
      assert x in a && y in a;
    }
  }

  lemma MultisetCons(s: seq<Operation>)
    requires |s| > 0
    ensures multiset(s) == multiset{s[0]} + multiset(s[1..])
  {
    assert s == [s[0]] + s[1..];
  }

  lemma RankedTail(s: seq<Operation>)
    requires Ranked(s) && |s| > 0
    ensures Ranked(s[1..])
  {
    forall i, j | 0 <= i < j < |s[1..]| ensures RanksBefore(s[1..][i], s[1..][j]) {
      assert s[1..][i] == s[i + 1] && s[1..][j] == s[j + 1];
    }
  }

  /** The rows of odd rank: positions 0, 2, 4, ... */
  function OddRanks(s: seq<Operation>): (r: seq<Operation>)
    ensures |r| == (|s| + 1) / 2
    ensures forall k :: 0 <= k < |r| ==> r[k] == s[2 * k]
  {
    if |s| <= 1 then s
    else [s[0]] + OddRanks(s[2..])
  }

  function CandidateOf(op: Operation): Candidate
  {
    Candidate(op.id, op.txId)
  }

  function Min(a: int, b: int): int
  {
    if a <= b then a else b
  }

  /** `WHERE rn % 2 = 1 ORDER BY rn LIMIT 10` over rows in rank order:
      candidate `k` is the row of rank `2k + 1`, so ranks 1..19 at most. */
  function OddLatest(ranked: seq<Operation>): (r: seq<Candidate>)
    ensures |r| == Min(Limit, (|ranked| + 1) / 2)
    ensures forall k :: 0 <= k < |r| ==> 2 * k + 1 <= 2 * Limit - 1 && r[k] == CandidateOf(ranked[2 * k])
  {
    var odd := OddRanks(ranked);
    var kept := odd[..Min(Limit, |odd|)];
    seq(|kept|, k requires 0 <= k < |kept| => CandidateOf(kept[k]))
  }

  /** The selection query. A query, scan or iteration error yields no
      candidates. */
  function SelectOddLatest(ops: seq<Operation>, fault: bool): (r: Result<seq<Candidate>, Error>)
    ensures r.Err? <==> fault
    ensures r.Ok? ==> r.value == OddLatest(Rank(EligibleOps(ops)))
  {
    if fault then Err(ErrStorage("query odd operations"))
    else Ok(OddLatest(Rank(EligibleOps(ops))))
  }

  /** Every candidate names an applied, uncanceled row of the table. */
  lemma SelectedAreEligible(ops: seq<Operation>, k: nat)
    requires SelectOddLatest(ops, false).Ok?
    requires k < |SelectOddLatest(ops, false).value|
    ensures exists op :: op in ops && Eligible(op) && CandidateOf(op) == SelectOddLatest(ops, false).value[k]
  {
    var ranked := Rank(EligibleOps(ops));
    var op := ranked[2 * k];
    assert op in multiset(EligibleOps(ops));
    assert op in EligibleOps(ops);
  }

  /** With ten eligible rows, exactly ranks 1, 3, 5, 7 and 9 are selected. */
  lemma TenEligibleSelectsOddRanks(ops: seq<Operation>)
    requires |EligibleOps(ops)| == 10
    ensures var ranked := Rank(EligibleOps(ops));
            SelectOddLatest(ops, false)
              == Ok([CandidateOf(ranked[0]), CandidateOf(ranked[2]), CandidateOf(ranked[4]),
                     CandidateOf(ranked[6]), CandidateOf(ranked[8])])
  {
    OddLatestOfTen(Rank(EligibleOps(ops)));
  }

  lemma OddLatestOfTen(ranked: seq<Operation>)
    requires |ranked| == 10
    ensures OddLatest(ranked)
              == [CandidateOf(ranked[0]), CandidateOf(ranked[2]), CandidateOf(ranked[4]),
                  CandidateOf(ranked[6]), CandidateOf(ranked[8])]
  {
    var selected := OddLatest(ranked);
    var expected := [CandidateOf(ranked[0]), CandidateOf(ranked[2]), CandidateOf(ranked[4]),
                     CandidateOf(ranked[6]), CandidateOf(ranked[8])];
    assert |selected| == 5;
    assert selected[0] == expected[0] && selected[1] == expected[1] && selected[2] == expected[2];
    assert selected[3] == expected[3] && selected[4] == expected[4];
    assert selected == expected;
  }

  /** In a well-formed table the ranking of the eligible rows is determined
      by the rows alone. */
  lemma RankOfWellFormed(db: Db, other: seq<Operation>)
    requires WellFormed(db)
    requires multiset(other) == multiset(EligibleOps(db.ops)) && Ranked(other)
    ensures other == Rank(EligibleOps(db.ops))
  {
    var eligible := EligibleOps(db.ops);
    var ranked := Rank(eligible);
    assert IdsIdentifyRows(ranked) by {
      forall x, y | x in ranked && y in ranked && x.id == y.id
        ensures x == y
      {
        assert x in multiset(ranked) && y in multiset(ranked);
        assert x in eligible && y in eligible;
        var p :| 0 <= p < |db.ops| && db.ops[p] == x;
        var q :| 0 <= q < |db.ops| && db.ops[q] == y;
        assert p + 1 == q + 1;
      }
    }
    RankRanked(eligible);
    RankingIsUnique(ranked, other);
  }
}

=== FILE: tables.dfy ===
/** The two tables the ledger and the scheduler share, and the semantics of the
    SQL statements they run against them. Each statement is a pure function
    from one table state to the next. */
module Tables {
  import opened Domain

  datatype AccountRow = AccountRow(balance: int, updatedAt: Timestamp)

  /** `accounts` keyed by id, and `operations` in insertion order. */
  datatype Db = Db(accounts: map<AccountId, AccountRow>, ops: seq<Operation>)

  /** The columns an `INSERT INTO operations` supplies; `id` and `created_at`
      come from the table's defaults. */
  datatype OpInsert = OpInsert(
    txId: string,
    accountId: AccountId,
    source: Source,
    state: State,
    amount: int,
    applied: bool,
    note: Option<string>)

  /** The row an insert stores when it is given the next sequence id. */
  function Stored(ins: OpInsert, id: nat, now: Timestamp): Operation
  {
    Operation(id, ins.txId, ins.accountId, ins.source, ins.state, ins.amount,
              now, ins.applied, None, ins.note)
  }

  /** Position of the row holding `txId`, if any. */
  function IndexOfTx(ops: seq<Operation>, txId: string): (r: Option<nat>)
    ensures r.Some? ==> r.value < |ops| && ops[r.value].txId == txId
    ensures r.None? ==> forall i :: 0 <= i < |ops| ==> ops[i].txId != txId
  {
    if |ops| == 0 then None
    else if ops[0].txId == txId then Some(0)
    else
      match IndexOfTx(ops[1..], txId)
      case None => None
      case Some(k) => Some(k + 1)
  }

  /** Position of the row whose primary key is `id`, if any. */
  function IndexOfId(ops: seq<Operation>, id: int): (r: Option<nat>)
    ensures r.Some? ==> r.value < |ops| && ops[r.value].id == id
    ensures r.None? ==> forall i :: 0 <= i < |ops| ==> ops[i].id != id
  {
    if |ops| == 0 then None
    else if ops[0].id == id then Some(0)
    else
      match IndexOfId(ops[1..], id)
      case None => None
      case Some(k) => Some(k + 1)
  }

  /** Invariants every committed state keeps: non-negative balances, dense
      sequence ids, unique `tx_id`, every operation's account exists, and
      positive amounts (amounts are validated at the edge). */
  ghost predicate WellFormed(db: Db)
  {
    && (forall a :: a in db.accounts ==> db.accounts[a].balance >= 0)
    && (forall i :: 0 <= i < |db.ops| ==> db.ops[i].id == i + 1)
    && (forall i, j :: 0 <= i < j < |db.ops| ==> db.ops[i].txId != db.ops[j].txId)
    && (forall i :: 0 <= i < |db.ops| ==> db.ops[i].accountId in db.accounts)
    && (forall i :: 0 <= i < |db.ops| ==> db.ops[i].amount > 0)
  }

  /** `b` is `a` with at most the status columns (`applied`, `canceled_at`,
      `cancel_note`) rewritten: keys, owner and amount are untouched. */
  ghost predicate SameKeys(a: seq<Operation>, b: seq<Operation>)
  {
    && |a| == |b|
    && forall i :: 0 <= i < |a| ==>
         && b[i].id == a[i].id && b[i].txId == a[i].txId
         && b[i].accountId == a[i].accountId && b[i].amount == a[i].amount
  }

  /** Rewriting status columns keeps every table invariant. */
  lemma SameKeysPreserveWellFormed(db: Db, ops: seq<Operation>)
    requires WellFormed(db) && SameKeys(db.ops, ops)
    ensures WellFormed(db.(ops := ops))
  {
  }

  /** In a well-formed table the row with id `k` sits at position `k - 1`. */
  lemma IndexOfIdDense(db: Db, k: int)
    requires WellFormed(db)
    ensures 1 <= k <= |db.ops| ==> IndexOfId(db.ops, k) == Some(k - 1)
    ensures !(1 <= k <= |db.ops|) ==> IndexOfId(db.ops, k) == None
  {
    if 1 <= k <= |db.ops| {
      assert db.ops[k - 1].id == k;
    }
  }

  /** `INSERT INTO accounts (id, balance) VALUES ($1, 0) ON CONFLICT (id) DO NOTHING`. */
  function CreateAccountIfAbsent(db: Db, id: AccountId, now: Timestamp): (r: Db)
    ensures r.ops == db.ops
    ensures id in r.accounts && r.accounts.Keys == db.accounts.Keys + {id}
    ensures forall a :: a in db.accounts ==> r.accounts[a] == db.accounts[a]
    ensures id !in db.accounts ==> r.accounts[id] == AccountRow(0, now)
  {
    if id in db.accounts then db
    else db.(accounts := db.accounts[id := AccountRow(0, now)])
  }

  /** `INSERT INTO operations ... ON CONFLICT (tx_id) DO NOTHING`; the flag
      says whether a row was affected. */
  function InsertOpIfAbsent(db: Db, ins: OpInsert, now: Timestamp): (r: (Db, bool))
    ensures r.1 <==> IndexOfTx(db.ops, ins.txId).None?
    ensures r.1 ==> r.0 == db.(ops := db.ops + [Stored(ins, |db.ops| + 1, now)])
    ensures !r.1 ==> r.0 == db
  {
    if IndexOfTx(db.ops, ins.txId).Some? then (db, false)
    else (db.(ops := db.ops + [Stored(ins, |db.ops| + 1, now)]), true)
  }

  /** `UPDATE accounts SET balance = balance + delta, updated_at = now()
      WHERE id = $id AND balance + delta >= 0 RETURNING ...`; `None` when no
      row is affected. */
  function UpdateBalanceGuarded(db: Db, id: AccountId, delta: int, now: Timestamp): (r: Option<Db>)
    ensures r.Some? <==> id in db.accounts && db.accounts[id].balance + delta >= 0
    ensures r.Some? ==>
              && r.value.ops == db.ops
              && r.value.accounts == db.accounts[id := AccountRow(db.accounts[id].balance + delta, now)]
  {
    if id in db.accounts && db.accounts[id].balance + delta >= 0 then
      Some(db.(accounts := db.accounts[id := AccountRow(db.accounts[id].balance + delta, now)]))
    else None
  }

  /** `UPDATE operations SET applied = true WHERE tx_id = $1`. */
  function SetAppliedByTx(db: Db, txId: string): (r: Db)
    ensures r.accounts == db.accounts && SameKeys(db.ops, r.ops)
    ensures forall i :: 0 <= i < |db.ops| ==>
              && r.ops[i].applied == (db.ops[i].applied || db.ops[i].txId == txId)
              && r.ops[i].(applied := db.ops[i].applied) == db.ops[i]
  {
    db.(ops := seq(|db.ops|, i requires 0 <= i < |db.ops| =>
      if db.ops[i].txId == txId then db.ops[i].(applied := true) else db.ops[i]))
  }

  /** `UPDATE operations SET cancel_note = $note WHERE id = $1`. */
  function SetNoteById(db: Db, id: int, note: string): (r: Db)
    ensures r.accounts == db.accounts && SameKeys(db.ops, r.ops)
    ensures forall i :: 0 <= i < |db.ops| ==>
              && (db.ops[i].id == id ==> r.ops[i].cancelNote == Some(note))
              && (db.ops[i].id != id ==> r.ops[i] == db.ops[i])
              && r.ops[i].(cancelNote := db.ops[i].cancelNote) == db.ops[i]
  {
    db.(ops := seq(|db.ops|, i requires 0 <= i < |db.ops| =>
      if db.ops[i].id == id then db.ops[i].(cancelNote := Some(note)) else db.ops[i]))
  }

  /** `UPDATE operations SET canceled_at = now(), cancel_note = $note WHERE id = $1`. */
  function SetCanceledById(db: Db, id: int, now: Timestamp, note: string): (r: Db)
    ensures r.accounts == db.accounts && SameKeys(db.ops, r.ops)
    ensures forall i :: 0 <= i < |db.ops| ==>
              && (db.ops[i].id == id ==> r.ops[i].canceledAt == Some(now) && r.ops[i].cancelNote == Some(note))
              && (db.ops[i].id != id ==> r.ops[i] == db.ops[i])
              && r.ops[i].(canceledAt := db.ops[i].canceledAt, cancelNote := db.ops[i].cancelNote) == db.ops[i]
  {
    db.(ops := seq(|db.ops|, i requires 0 <= i < |db.ops| =>
      if db.ops[i].id == id then db.ops[i].(canceledAt := Some(now), cancelNote := Some(note))
      else db.ops[i]))
  }
}

=== FILE: usecase.dfy ===
/** The balance use case: turns a validated request into an operation, runs
    the ledger transaction, and maps its signals to a processing status
    (re-reading the account when the non-negative guard refused the
    operation). */
module Usecase {
  import opened Domain
  import opened Tables
  import opened Ledger

  /** The operation handed to the repository: the request's fields, the rest
      left at their zero values for the database to fill in. */
  function RequestOperation(req: ProcessRequest): (op: Operation)
    ensures op.txId == req.txId && op.accountId == req.accountId
    ensures op.source == req.source && op.state == req.state && op.amount == req.amount
    ensures !op.applied && !op.IsCanceled() && op.cancelNote.None?
  {
    Operation(0, req.txId, req.accountId, req.source, req.state, req.amount, 0, false, None, None)
  }

  /** Processes one request against the tables. */
  function Process(db: Db, req: ProcessRequest, now: Timestamp, faults: set<TxStep>, rereadFault: bool)
    : (r: (Db, Result<ProcessResponse, Error>))
    ensures r.1.Ok? ==> r.1.value.txId == req.txId
    ensures r.1.Err? ==> r.0 == db && r.1.error != ErrDuplicateTx && r.1.error != ErrNegativeBalance
    // applied: the response carries the new balance, which is what is stored
    ensures r.1.Ok? && r.1.value.status == StatusOK ==>
              var balance := StartingBalance(db, req.accountId) + SignedDelta(req.state, req.amount);
              && IndexOfTx(db.ops, req.txId).None?
              && balance >= 0
              && r.1.value.balance == balance && r.1.value.timestamp == now
              && r.0.accounts == db.accounts[req.accountId := AccountRow(balance, now)]
              && r.0.ops == db.ops + [AppliedRow(db, RequestOperation(req), now)]
              && r.0.ops[|db.ops|].txId == req.txId && r.0.ops[|db.ops|].applied
    // which status is answered, in terms of the inputs
    ensures r.1.Ok? && r.1.value.status == StatusOK <==>
              && faults !! ApplyPath
              && IndexOfTx(db.ops, req.txId).None?
              && StartingBalance(db, req.accountId) + SignedDelta(req.state, req.amount) >= 0
    ensures r.1.Ok? && r.1.value.status == StatusAlreadyProcessed <==>
              faults !! DuplicatePath && IndexOfTx(db.ops, req.txId).Some?
    ensures r.1.Ok? && r.1.value.status == StatusRejectedNegative <==>
              && faults !! RejectPath
              && IndexOfTx(db.ops, req.txId).None?
              && req.accountId in db.accounts
              && db.accounts[req.accountId].balance + SignedDelta(req.state, req.amount) < 0
              && !rereadFault
    // a replay: only the upsert is kept, and the snapshot after it is reported
    ensures r.1.Ok? && r.1.value.status == StatusAlreadyProcessed ==>
              && IndexOfTx(db.ops, req.txId).Some?
              && UpsertOnly(db, r.0, req.accountId, now)
              && r.0.ops == db.ops
              && r.1.value.balance == StartingBalance(db, req.accountId)
              && r.1.value.timestamp == r.0.accounts[req.accountId].updatedAt
    // refused by the guard: nothing is kept, the unchanged balance is reported
    ensures r.1.Ok? && r.1.value.status == StatusRejectedNegative ==>
              && r.0 == db
              && req.accountId in db.accounts
              && r.1.value.balance == db.accounts[req.accountId].balance
              && r.1.value.timestamp == db.accounts[req.accountId].updatedAt
              && r.1.value.balance + SignedDelta(req.state, req.amount) < 0
    // a refused first operation on an unseen account leaves no account behind
    ensures r.1 == Err(ErrNotFound) <==>
              && faults !! RejectPath
              && IndexOfTx(db.ops, req.txId).None?
              && req.accountId !in db.accounts
              && SignedDelta(req.state, req.amount) < 0
              && !rereadFault
    // storage failures of the transaction surface unchanged
    ensures var reply := ProcessTransaction(db, RequestOperation(req), now, faults).1;
            reply.err.Some? && reply.err.value.ErrStorage? ==> r.1 == Err(reply.err.value)
  {
    var processed := ProcessTransaction(db, RequestOperation(req), now, faults);
    var db' := processed.0;
    var reply := processed.1;
    if reply.err == Some(ErrDuplicateTx) then
      var account := reply.account.value;
      (db', Ok(ProcessResponse(req.txId, StatusAlreadyProcessed, account.balance, account.updatedAt)))
    else if reply.err == Some(ErrNegativeBalance) then
      match GetAccount(db', req.accountId, rereadFault)
      case Err(e) => (db', Err(e))
      case Ok(current) =>
        (db', Ok(ProcessResponse(req.txId, StatusRejectedNegative, current.balance, current.updatedAt)))
    else if reply.err.Some? then
      (db', Err(reply.err.value))
    else
      var account := reply.account.value;
      assert db'.ops[|db.ops|].txId == req.txId;
      (db', Ok(ProcessResponse(req.txId, StatusOK, account.balance, account.updatedAt)))
  }

  /** Reads the balance of an account. */
  function GetBalance(db: Db, id: AccountId, fault: bool): (r: Result<BalanceResponse, Error>)
    ensures r.Ok? <==> !fault && id in db.accounts
    ensures r.Ok? ==> r.value == BalanceResponse(db.accounts[id].balance, db.accounts[id].updatedAt)
    ensures r.Err? ==> r == Err(GetAccount(db, id, fault).error)
  {
    match GetAccount(db, id, fault)
    case Err(e) => Err(e)
    case Ok(account) => Ok(BalanceResponse(account.balance, account.updatedAt))
  }

  /** After an OK answer, reading the balance returns exactly the balance
      and timestamp the answer reported. */
  lemma ProcessThenGetBalance(db: Db, req: ProcessRequest, now: Timestamp, faults: set<TxStep>, reread: bool)
    requires var r := Process(db, req, now, faults, reread);
             r.1.Ok? && r.1.value.status == StatusOK
    ensures var r := Process(db, req, now, faults, reread);
            GetBalance(r.0, req.accountId, false) == Ok(BalanceResponse(r.1.value.balance, r.1.value.timestamp))
  {
  }

  /** A retried request is answered `AlreadyProcessed` with the balance the
      first call produced, and the tables do not change again. */
  lemma ProcessRetryIsAlreadyProcessed(db: Db, req: ProcessRequest, now: Timestamp, faults: set<TxStep>,
                                       now': Timestamp, faults': set<TxStep>, reread: bool, reread': bool)
    requires var first := Process(db, req, now, faults, reread);
             first.1.Ok? && first.1.value.status == StatusOK
    requires faults' !! DuplicatePath
    ensures var first := Process(db, req, now, faults, reread);
            var second := Process(first.0, req, now', faults', reread');
            && second.0 == first.0
            && second.1 == Ok(first.1.value.(status := StatusAlreadyProcessed))
  {
    ProcessIdempotent(db, RequestOperation(req), now, faults, now', faults');
  }
}

=== FILE: validation.dfy ===
/** Validation of the incoming `Process` request at the gRPC edge. Every
    rejection is an `InvalidArgument` status error.

    UUID and decimal parsing belong to libraries; they are parameters here.
    A parsed decimal is `coef * 10^exp` exactly as the parser returns it:
    "1.50" is (150, -2) and "1.500" is (1500, -3), so the two-places rule
    looks at how the amount was written, not at its value. */
module Validation {
  import opened Domain
  import opened Wire

  // ---------------------------------------------------------------- requests

  /** The required fields missing from `req`, in the order they are
      checked. */
  function MissingFields(req: PbProcessRequest): seq<string>
  {
    (if req.accountId == "" then ["account_id"] else [])
    + (if req.txId == "" then ["tx_id"] else [])
    + (if req.amount == "" then ["amount"] else [])
    + (if req.source == SourceUnspecified then ["source"] else [])
    + (if req.state == StateUnspecified then ["state"] else [])
  }

  /** Presence check: the first missing field is reported. Unrecognised enum
      values pass here and are rejected by the enum mapping. */
  function ValidateProcessRequest(req: PbProcessRequest): (r: Option<StatusError>)
    ensures r.None? <==> MissingFields(req) == []
    ensures r.Some? ==> r.value == StatusError(InvalidArgument, Required(MissingFields(req)[0]))
  {
    if req.accountId == "" then Some(StatusError(InvalidArgument, Required("account_id")))
    else if req.txId == "" then Some(StatusError(InvalidArgument, Required("tx_id")))
    else if req.amount == "" then Some(StatusError(InvalidArgument, Required("amount")))
    else if req.source == SourceUnspecified then Some(StatusError(InvalidArgument, Required("source")))
    else if req.state == StateUnspecified then Some(StatusError(InvalidArgument, Required("state")))
    else None
  }

  /** The message for a missing field. */
  function Required(field: string): string
  {
    field + " is required"
  }

  // ------------------------------------------------------------- account id

  /** An account id must be present and parse as a UUID. */
  function ValidateAccountID(s: string, parse: string -> Option<AccountId>): (r: Result<AccountId, StatusError>)
    ensures r.Ok? <==> s != "" && parse(s).Some?
    ensures r.Ok? ==> r.value == parse(s).value
    ensures r.Err? ==> r.error.code == InvalidArgument
    ensures r.Err? ==> (r.error.message == Required("account_id") <==> s == "")
  {
    if s == "" then Err(StatusError(InvalidArgument, Required("account_id")))
    else
      match parse(s)
      case None => Err(StatusError(InvalidArgument, "invalid account_id format: must be valid UUID"))
      case Some(id) => Ok(id)
  }

  // ----------------------------------------------------------------- amount

  /** A decimal as the parser returns it: `coef * 10^exp`. */
  datatype Decimal = Decimal(coef: int, exp: int)

  function Pow10(n: nat): (r: nat)
    ensures r >= 1
  {
    if n == 0 then 1 else 10 * Pow10(n - 1)
  }

  /** `10^exp` for any exponent. */
  function Scale(exp: int): (r: real)
    ensures r > 0.0
  {
    if exp >= 0 then Pow10(exp) as real else 1.0 / (Pow10(-exp) as real)
  }

  /** The number a decimal denotes. */
  function Value(d: Decimal): real
  {
    d.coef as real * Scale(d.exp)
  }

  lemma ValueSign(d: Decimal)
    ensures Value(d) > 0.0 <==> d.coef > 0
  {
    var s := Scale(d.exp);
    if d.coef > 0 {
      assert d.coef as real * s > 0.0;
    } else {
      assert d.coef as real * s <= 0.0;
    }
  }

  /** An amount must be present, parse, be positive, and be written with at
      most two decimal places. */
  function ValidateAmount(s: string, parse: string -> Option<Decimal>): (r: Result<Decimal, StatusError>)
    ensures r.Ok? <==> s != "" && parse(s).Some? && Value(parse(s).value) > 0.0 && parse(s).value.exp >= -2
    ensures r.Ok? ==> r.value == parse(s).value
    ensures r.Err? ==> r.error.code == InvalidArgument
    ensures r.Err? && s != "" && parse(s).Some? && Value(parse(s).value) > 0.0 ==>
              r.error.message == "amount must have at most 2 decimal places"
  {
    if s == "" then Err(StatusError(InvalidArgument, Required("amount")))
    else
      match parse(s)
      case None => Err(StatusError(InvalidArgument, "invalid amount format: must be valid decimal"))
      case Some(d) =>
        if Value(d) <= 0.0 then Err(StatusError(InvalidArgument, "amount must be positive"))
        else if d.exp < -2 then Err(StatusError(InvalidArgument, "amount must have at most 2 decimal places"))
        else Ok(d)
  }

  /** The amount in minor units (cents) of a decimal with at most two
      places. */
  function ToCents(d: Decimal): int
    requires d.exp >= -2
  {
    d.coef * Pow10(d.exp + 2)
  }

  lemma {:induction false} Pow10Add(m: nat, n: nat)
    ensures Pow10(m + n) == Pow10(m) * Pow10(n)
  {
    if m > 0 {
      Pow10Add(m - 1, n);
    }
  }

  /** `10^exp * 100 == 10^(exp + 2)` for the exponents an amount may have. */
  lemma ScaleCents(exp: int)
    requires exp >= -2
    ensures Scale(exp) * 100.0 == Pow10(exp + 2) as real
  {
    if exp >= 0 {
      Pow10Add(exp, 2);
      assert Pow10(2) == 100;
    } else if exp == -1 {
      assert Pow10(1) == 10;
    } else {
      assert Pow10(2) == 100;
    }
  }

  /** An accepted amount is a positive whole number of cents: the integer
      the ledger stores is exactly the decimal times one hundred. */
  lemma AcceptedAmountIsWholeCents(s: string, parse: string -> Option<Decimal>)
    requires ValidateAmount(s, parse).Ok?
    ensures var d := ValidateAmount(s, parse).value;
            && Value(d) * 100.0 == ToCents(d) as real
            && ToCents(d) > 0
  {
    var d := ValidateAmount(s, parse).value;
    ScaleCents(d.exp);
    ValueSign(d);
    ScaledProduct(d.coef, Scale(d.exp), Pow10(d.exp + 2));
  }

  lemma ScaledProduct(c: int, scale: real, p: nat)
    requires scale * 100.0 == p as real && p >= 1
    ensures (c as real * scale) * 100.0 == (c * p) as real
    ensures c > 0 ==> c * p > 0
  {
    assert (c as real * scale) * 100.0 == c as real * (scale * 100.0);
  }

  /** The same value written with three places is refused while two places
      are accepted: the rule inspects the exponent the parser returned. */
  lemma PlacesAreReadFromTheText(s: string, t: string, parse: string -> Option<Decimal>)
    requires s != "" && parse(s) == Some(Decimal(1500, -3))
    requires t != "" && parse(t) == Some(Decimal(150, -2))
    ensures Value(Decimal(1500, -3)) == Value(Decimal(150, -2))
    ensures ValidateAmount(s, parse) == Err(StatusError(InvalidArgument, "amount must have at most 2 decimal places"))
    ensures ValidateAmount(t, parse) == Ok(Decimal(150, -2))
  {
    assert Pow10(3) == 1000 && Pow10(2) == 100;
    ValueSign(Decimal(1500, -3));
    ValueSign(Decimal(150, -2));
  }

  // ------------------------------------------------------------------ tx id

  /** Bytes of the UTF-8 encoding of one character. */
  function Utf8Width(c: char): (r: nat)
    ensures 1 <= r <= 4
  {
    if c as int < 0x80 then 1
    else if c as int < 0x800 then 2
    else if c as int < 0x10000 then 3
    else 4
  }

  /** Bytes of the UTF-8 encoding of a string (Go's `len`). */
  function Utf8Length(s: string): (r: nat)
    ensures |s| <= r <= 4 * |s|
    ensures r == 0 <==> s == ""
  {
    if |s| == 0 then 0 else Utf8Width(s[0]) + Utf8Length(s[1..])
  }

  /** A transaction id must be present and at most 128 bytes long. */
  function ValidateTxID(txId: string): (r: Option<StatusError>)
    ensures r.None? <==> 1 <= Utf8Length(txId) <= 128
    ensures r.Some? ==> r.value.code == InvalidArgument
    ensures r.Some? ==> (r.value.message == Required("tx_id") <==> txId == "")
  {
    if txId == "" then Some(StatusError(InvalidArgument, Required("tx_id")))
    else if Utf8Length(txId) > 128 then Some(StatusError(InvalidArgument, "tx_id must be at most 128 characters"))
    else None
  }

  /** Characters outside ASCII count several bytes: an ASCII id may have 128
      characters, an id of four-byte characters only 32. */
  lemma {:induction false} TxIdLimitCountsBytes(s: string, w: nat)
    requires 1 <= w <= 4
    requires forall i :: 0 <= i < |s| ==> Utf8Width(s[i]) == w
    ensures Utf8Length(s) == w * |s|
    ensures ValidateTxID(s).None? <==> 1 <= w * |s| <= 128
  {
    if |s| > 0 {
      TxIdLimitCountsBytes(s[1..], w);
      assert Utf8Width(s[0]) == w;
    }
  }
}

=== FILE: wire.dfy ===
/** The gRPC surface the transport layer works with: the generated enum and
    message types of the balance service, and gRPC status errors. The enum
    numbering of the generated code is not part of this model; an enum value
    the schema does not name is kept as `...Unrecognized` with its number. */
module Wire {

  datatype PbSource =
    | SourceUnspecified
    | SourceGame
    | SourcePayment
    | SourceService
    | SourceUnrecognized(number: int)

  datatype PbState =
    | StateUnspecified
    | StateDeposit
    | StateWithdraw
    | StateUnrecognized(number: int)

  datatype PbStatus = PbStatusOK | PbStatusAlreadyProcessed | PbStatusRejectedNegative

  /** The fields of a `ProcessRequest` message; strings default to "". */
  datatype PbProcessRequest = PbProcessRequest(
    accountId: string,
    txId: string,
    amount: string,
    source: PbSource,
    state: PbState)

  /** The gRPC status codes the service uses. */
  datatype Code = InvalidArgument | NotFound | AlreadyExists | Internal

  /** `status.Error(code, message)`. */
  datatype StatusError = StatusError(code: Code, message: string)
}
